=== FILE: README.md ===
# ichimon_itto: question pipeline, grading session and id renumbering

ichimon_itto is a one-question-one-answer vocabulary quiz that runs in the
browser. This project models its logic core in Dafny and proves what that
core promises. The core has three parts.

- **Question pipeline** (`assets/app.js`):
  - `parseCSV` is a two-state (quoted / unquoted) character scanner whose
    rows are cleaned of blank rows and mapped onto the header row.
  - The record filter of `loadQuestions` keeps only records with a
    non-blank `id`, `prompt` and `answer`.
  - `sampleWithoutReplacement` is a Fisher-Yates shuffle of a copy followed
    by a clamped prefix.
  - Answer canonicalisation: `toHalfWidthAscii` and `normalizeAnswer`
    fold full-width forms, trim and lower-case.
  - `getAcceptedAnswers` gives the primary answer plus the `|`-separated
    alternates.
- **Quiz page** (`assets/quiz.js`):
  - `escapeHtml`.
  - The page's state (`allQuestions`, `questions`, `graded`, `history`) as
    a `Session` value. `init`, `gradeAll` and the retry-wrong button are
    transitions of it.
- **Id renumbering** (`scripts/renumber_tcsv.py`): the lines of the teacher
  CSV after `splitlines`. The header is kept. In every later line the
  leftmost `T-\d{3}\b` is replaced by `T-` and a running counter padded to
  three digits. The lines are written back joined by `\n`, with a final
  `\n`.

## Layout

- `wrappers.dfy` (module `Wrappers`): `Option`, `Result`.
- `seqs.dfy` (module `Seqs`): `Filter`, `Map`, `Zip`, `Split`/`Join`, the subsequence relation.
- `text.dfy` (module `Text`): JavaScript `trim` (the exact ECMAScript white-space set), ASCII lower-casing, and how trimming commutes with character maps.
- `csv.dfy` (module `Csv`): the scanner (`Step`/`Scan`/`Flush`), the loop method `ParseRows`, blank-row removal and the header mapping (`Parse`).
- `csv_props.dfy` (module `CsvProps`): a CSV writer (quoted or plain cells; LF, CR LF or bare CR terminators), and the lemmas about how the scanner reads quoted fields, the three terminators, blank rows and the final row.
- `loader.dfy` (module `Loader`): the fetch response and `loadQuestions`.
- `answers.dfy` (module `Answers`): `toHalfWidthAscii`, `normalizeAnswer`, `getAcceptedAnswers` and the grading test.
- `sampler.dfy` (module `Sampler`): `sampleWithoutReplacement`, with the random indices given as an argument.
- `html.dfy` (module `Html`): `escapeHtml` and a decoder that inverts it.
- `quiz.dfy` (module `Quiz`): `Session`, `gradeAll`, `init` and retry-wrong.
- `renumber.dfy` (module `Renumber`): `splitlines`, the pattern, the renumbering loop and the written text.

A few modelling choices need stating:

- **Randomness.** `Math.random` is replaced by a sequence `draw`. `draw[i]`
  is the index `j` drawn for position `i`, with `0 <= j <= i`. Every
  property holds for all such draws. Nothing is said about their
  distribution.
- **Settings.** The stored settings are reduced to the `count` entry.
  - `Unset` stands for every falsy value, which `|| "10"` replaces with 10.
  - `Setting(All)` stands for `"all"`.
  - `Setting(Num(n))` stands for a value that `Number` turns into the
    integer `n`.
- **Loading.** The outcome of `loadQuestions` is a `Result` argument of
  `init`. When the load fails, `init` throws before it assigns anything,
  so the session is left unchanged.
- **Page inputs.** The text typed into the page's answer fields is a
  sequence of strings given to `GradeAll`, one per question.

## Model

| member | source | states |
|---|---|---|
| Csv.ParseRows | assets/app.js:3-45 | The index-based loop, with its extra `i++` for `""` and CRLF, produces exactly the rows of the character-by-character scanner, flushing a partial last row |
| Csv.TrimAllTrims | assets/app.js:51 | No header name starts or ends with white space, trimming the header again changes nothing, and a header whose names are already trimmed is kept as it is |
| Csv.Assign | assets/app.js:54 | After the first `n` header columns the object's keys are exactly those names, and each name holds the trimmed cell of the last column carrying it ("" past the end of a short row) |
| Csv.MakeRecord | assets/app.js:52-55 | A record's keys are exactly the trimmed header names, so cells beyond the header are ignored; each name maps to the trimmed cell of its last column, or "" when the row is short |
| Csv.HeaderMap | assets/app.js:49-56 | One record per cleaned row after the header, and none when no row survives cleaning |
| CsvProps.InsideQuotes | assets/app.js:13-22 | Inside quotes `""` yields one literal quote and commas, CR and LF are cell text; a quote not followed by another ends quoted mode |
| CsvProps.CloseQuote | assets/app.js:18-21 | A lone quote inside quotes leaves quoted mode and emits nothing |
| CsvProps.QuotedChar | assets/app.js:13-22 | Each character of an escaped quoted body adds exactly that character to the current cell |
| CsvProps.QuotedField | assets/app.js:13-22 | A quoted field adds exactly its unescaped contents to the current cell and returns to unquoted mode |
| CsvProps.CellEnd | assets/app.js:24-29 | An unquoted comma ends the current cell and starts an empty one |
| CsvProps.LineEnd | assets/app.js:30-36 | An unquoted LF ends the current cell and the current row |
| CsvProps.CellRoundTrip | assets/app.js:13-39 | A written cell, quoted with inner quotes doubled or plain, adds exactly its contents to the current cell and leaves the scanner outside quotes |
| CsvProps.RowCells | assets/app.js:13-39 | The cells of a written row, separated by commas, are read back as those cells, the last one still open |
| CsvProps.CrlfEnd | assets/app.js:24-36 | An unquoted CR LF pair ends the cell and the row once |
| CsvProps.BareCrEnd | assets/app.js:24-36 | An unquoted CR not followed by LF ends the cell and the row on its own |
| CsvProps.RowEnd | assets/app.js:24-36 | Each of LF, CR LF and a bare CR ends the current cell and row |
| CsvProps.NoLeadingLf | assets/app.js:31 | A written table never starts with LF, so a bare CR before it is not merged into a CR LF pair |
| CsvProps.RowRoundTrip | assets/app.js:13-37 | A row written with quoted cells (any contents) or plain cells, and ended by LF, CR LF or a bare CR, is read back as exactly that row |
| CsvProps.TableRoundTrip | assets/app.js:9-40 | The scanner inverts the writer, quoted or plain and with any of the three terminators, on every table whose rows have at least one cell (and, for plain writing, cells free of quotes, commas and line breaks) |
| CsvProps.RowsOfEncodedTable | assets/app.js:3-45 | The raw rows of a written table are that table, for either writing style and every terminator |
| CsvProps.LineEndsAgree | assets/app.js:3-57 | A table written with CR LF or with bare CR terminators parses to the same records as with LF, quoted cells included |
| CsvProps.CrlfScansAsLf | assets/app.js:31 | CRLF is one row terminator: on text without quotes or CRs, writing every LF as CRLF leaves the scanner state the same |
| CsvProps.CrlfParsesAsLf | assets/app.js:3-57 | On any text without quotes or CRs, not just written tables, writing every LF as CR LF gives the same records |
| CsvProps.AppendNewline | assets/app.js:41-45 | Appending LF to text that ends outside quotes either changes nothing, which happens only when the text ends with a CR that already ended the row and left no partial row, or ends the last row as a line terminator does |
| CsvProps.FinalTerminatorOptional | assets/app.js:41-45 | A final row without a line terminator is still read: a trailing LF changes no record |
| CsvProps.BlankRowsIgnored | assets/app.js:47-49 | A row whose cells are all blank after trimming contributes nothing, wherever it stands |
| CsvProps.ParseCleanTable | assets/app.js:3-57 | Clean CSV, written with quoted or plain cells and any of the three terminators, gives one record per data row, in order, keyed by exactly the trimmed header names, each holding the trimmed cell of its column |
| CsvProps.PlainText | assets/app.js:39 | Text without quotes, commas or line breaks is copied into the current cell unchanged |
| CsvProps.MidCellQuote | assets/app.js:13-21 | A quote in the middle of an unquoted cell still toggles quote mode: `ab"c,d"e` is the single cell `abc,de` |
| Text.TrimFacts | assets/app.js:115 | `trim` gives a slice of the input with only white space before and after it and none at either of its own ends; it gives "" exactly for all-white-space input and leaves already-trimmed text alone |
| Text.TrimIdempotent | assets/app.js:115 | Trimming twice is trimming once |
| Text.ToLower | assets/app.js:115 | Lower-casing keeps the length, turns each ASCII capital into its small letter and keeps every other character, so no capital is left |
| Seqs.Split | assets/app.js:121 | Splitting on the vertical bar gives at least one segment, no segment holds the separator, and joining the segments with it gives the input back |
| Seqs.SplitJoin | assets/app.js:121 | Splitting recovers any list of separator-free segments from their join |
| Loader.LoadQuestions | assets/app.js:59-79 | Loading fails exactly when the response is not a success, and the error carries the HTTP status |
| Loader.KeepsExactlyComplete | assets/app.js:74-79 | The kept records are an order-preserving subsequence holding each record with a non-blank id, prompt and answer as often as the input, and no other record |
| Loader.LoadKeepsExactlyComplete | assets/app.js:62-79 | A loaded question list holds exactly the parsed records that are complete, and every question in it is complete |
| Sampler.Swap | assets/app.js:99 | The swap exchanges the two positions, leaves every other position alone and keeps the multiset of elements |
| Sampler.ShuffleDown | assets/app.js:96-100 | The shuffle steps keep the length and the multiset of elements |
| Sampler.ClampNearest | assets/app.js:102 | `max(0, min(n, len))` is the length in 0..len nearest to the requested count, and no other length there is as near |
| Sampler.SampleWithoutReplacement | assets/app.js:94-104 | The in-place loop from the last index down to 1 produces the shuffle followed by the "all" or clamped-prefix choice |
| Sampler.SampleFacts | assets/app.js:94-104 | The sample has `max(0, min(n, len))` elements (all of them for "all"), is a sub-multiset of the input, and with "all" is a permutation of it |
| Sampler.SampleIsPrefix | assets/app.js:101-103 | With the same draws, a numbered request is a prefix of the "all" answer, and asking for at least the length is asking for all |
| Sampler.SampleDistinct | assets/app.js:94-104 | The sample comes from distinct input positions: no element is drawn twice from an input without repeats |
| Sampler.IdentityDrawKeepsOrder | assets/app.js:97-103 | When every position swaps with itself, the sample is the input prefix of the requested length |
| Answers.HalfWidthSpec | assets/app.js:107-111 | Each U+FF01..U+FF5E character becomes that code point minus 0xFEE0 (printable ASCII), U+3000 becomes a space, every other character is kept, and no full-width form or ideographic space is left |
| Answers.NormalizeFacts | assets/app.js:113-116 | A normalised answer is trimmed, has no full-width form, ideographic space or ASCII capital, and is no longer than the input |
| Answers.NormalizeAnswer | assets/app.js:113-116 | A missing value gives ""; any string gives a canonical answer no longer than itself |
| Answers.NormalFixedPoint | assets/app.js:113-116 | A canonical answer normalises to itself |
| Answers.NormalizeIdempotent | assets/app.js:113-116 | Normalising twice is normalising once |
| Answers.NormalizeIsFoldThenTrim | assets/app.js:107-116 | Normalisation is per-character width and case folding, then trimming |
| Answers.NormalizeIgnoresWidthAndCase | assets/app.js:107-116 | Answers that differ only in character width or ASCII case normalise alike |
| Answers.NormalizeIgnoresTrim | assets/app.js:115 | Trimming before normalising changes nothing |
| Answers.NormalizeEmpty | assets/app.js:113-116 | An answer normalises to "" exactly when it is all white space, ideographic spaces included |
| Answers.AcceptedInOrder | assets/app.js:118-125 | The accepted list is exactly the normalised primary answer, followed by the normal forms of the non-blank bar-separated segments of `alt_answers`, in their order and once per occurrence |
| Answers.NonBlankTrimmedMembers | assets/app.js:120-123 | A string is a kept segment exactly when it is the trimming of a segment that is non-empty after trimming |
| Answers.NonBlankTrimmedShape | assets/app.js:120-123 | Every kept segment is non-empty and trimmed |
| Answers.NonBlankTrimmedEmpty | assets/app.js:120-123 | No segment is kept exactly when every segment is blank |
| Answers.TrimmedNonEmpty | assets/app.js:114-116 | A non-empty trimmed string never normalises to "" |
| Answers.AcceptedAnswersShape | assets/app.js:118-125 | Every accepted answer is canonical, every alternate is non-empty, and the list has one element exactly when `alt_answers` is missing or all blank |
| Answers.AcceptedAlternates | assets/app.js:118-125 | A string is an accepted alternate exactly when some non-blank bar-separated segment of `alt_answers` normalises to it |
| Answers.IsCorrectIff | assets/quiz.js:153-154 | An input is graded correct exactly when it normalises like the primary answer or like some non-blank alternate |
| Answers.BlankInputIncorrect | assets/quiz.js:153-154 | A blank input is correct exactly when the primary answer normalises to "" |
| Html.EscapeHtml | assets/quiz.js:42-54 | The escaped text holds no `<`, `>`, `"` or `'` and is never shorter than the input |
| Html.EscapePlain | assets/quiz.js:42-54 | Text without any of the five special characters is left unchanged |
| Html.EscapeConcat | assets/quiz.js:42-54 | Escaping works character by character: it distributes over concatenation |
| Html.UnescapeEscape | assets/quiz.js:42-54 | Escaping loses nothing: decoding the five references gives the original text back |
| Html.EscapeInjective | assets/quiz.js:42-54 | Different texts escape to different HTML |
| Quiz.GradeAll | assets/quiz.js:142-157 | A graded session is left alone with no score; otherwise the history is one entry per question in order, each the grading of that question's input, the session becomes graded, and the score is the number of correct entries |
| Quiz.GradeAllConsistent | assets/quiz.js:142-157 | After grading, the history lines up with the questions, each verdict is the grading test on the recorded input, and the score is at most the number of questions |
| Quiz.ScorePlusWrong | assets/quiz.js:189-191 | Correct and wrong entries together make up the history, so the score never exceeds its length |
| Quiz.WrongQuestionsMembers | assets/quiz.js:255 | A question is up for retry exactly when some history entry holds it with a wrong verdict |
| Quiz.Init | assets/quiz.js:221-234 | A failed load changes nothing; otherwise the loaded list becomes `allQuestions`, grading is reset, and a custom list is used as it is |
| Quiz.InitSamples | assets/quiz.js:228-231 | Without a custom list the quiz holds the requested number of loaded questions (ten when the setting is unset, clamped to what was loaded), none more often than loaded |
| Quiz.InitConsistent | assets/quiz.js:231-234 | `init` leaves a session whose history lines up with its questions |
| Quiz.InitQuestionsComplete | assets/quiz.js:226-231 | A sampled quiz drawn from complete loaded questions holds only complete questions |
| Quiz.RetryWrong | assets/quiz.js:254-258 | With no wrong entry nothing happens; otherwise, when the reload succeeds, the new quiz is the wrongly answered questions and grading is reset, and a failed reload changes nothing |
| Quiz.RetryAfterGrading | assets/quiz.js:254-258 | After grading, retrying is a no-op when all answers were right; otherwise it holds exactly the wrongly answered questions, in their original order, as many as the questions minus the score |
| Quiz.RetryBeforeGrading | assets/quiz.js:254-256 | Before grading the history is empty, so retry-wrong does nothing |
| Quiz.FirstInit | assets/quiz.js:86-89 | The page starts empty and consistent; retry-wrong does nothing there; the first `init()` leaves no questions when the load fails and otherwise a consistent, ungraded sample of the requested size |
| Renumber.FindMatch | scripts/renumber_tcsv.py:31-34 | `pattern.search` finds the leftmost position where `T`, `-`, three digits and a word boundary occur, or reports that there is none |
| Renumber.Pad3 | scripts/renumber_tcsv.py:35 | `{count:03d}` is all digits, exactly three of them below 1000, and from 1000 on the plain decimal form, which never starts with `0` |
| Renumber.Pad3Value | scripts/renumber_tcsv.py:35 | The padded counter denotes the counter |
| Renumber.ReplaceSpec | scripts/renumber_tcsv.py:33-36 | Substituting at the leftmost match keeps the text before and after it and writes `T-` and digits denoting the counter; below 1000 the line keeps its length, only the five matched characters change, and the leftmost match is still there, now holding the new id |
| Renumber.RenumberDataCount | scripts/renumber_tcsv.py:32-40 | The loop writes one line per data line and advances the counter once per line holding a match |
| Renumber.RenumberDataLine | scripts/renumber_tcsv.py:32-40 | A data line without a match is copied; a data line with one has its leftmost match replaced by the id numbered by the matching lines before it |
| Renumber.RenumberDataSpec | scripts/renumber_tcsv.py:32-40 | The whole data loop: line count kept, each line as above, the counter advanced by the number of matching lines |
| Renumber.RenumberSpec | scripts/renumber_tcsv.py:24-43 | An empty line list is rejected with "empty file"; otherwise the header is kept, the line count is kept, and the reported count is the number of data lines holding an id |
| Renumber.RenumberLines | scripts/renumber_tcsv.py:25-43 | The script's loop with its running counter computes exactly that result |
| Renumber.NextBreak | scripts/renumber_tcsv.py:24 | The next line break at or after a position: the first character in the `splitlines` break set, or the end of the text |
| Renumber.SplitLinesNoBreak | scripts/renumber_tcsv.py:24 | `splitlines` never leaves a line-break character inside a line |
| Renumber.WrittenRoundTrip | scripts/renumber_tcsv.py:42 | Splitting the written text into lines gives back exactly the lines written, when no line holds a break character |
| Renumber.RenumberLineAgain | scripts/renumber_tcsv.py:33-37 | Renumbering an already renumbered line with the same counter changes nothing |
| Renumber.RenumberIdempotent | scripts/renumber_tcsv.py:24-43 | Running the script again on its own output lines reproduces them, when at most 999 ids were written |
| Renumber.RenumberNoBreak | scripts/renumber_tcsv.py:32-40 | The lines written hold no line break when the lines read hold none |
| Renumber.RenumberTextIdempotent | scripts/renumber_tcsv.py:24-43 | Splitting the written text, renumbering and writing again gives the same text, when at most 999 ids were written |

## Left out

- I/O is not modelled. This covers `fetch` and its body (assets/app.js:60-62), the script's file read, the UTF-8/Shift_JIS decode fallback, the write and the progress prints (scripts/renumber_tcsv.py:4-23, 42-43). The model starts from the response and from the decoded text, and ends with the written text and the reported count.
- The `console.warn` header check (assets/app.js:66-71) has no effect on the result and is not modelled.
- `saveSettings` and `loadSettings` (assets/app.js:82-92) are `localStorage` and `JSON.parse` wrappers. The settings enter `init` as a `CountSetting` argument.
- `Math.random` (assets/app.js:98) is replaced by the `draw` argument, and uniformity is not claimed.
- No DOM work is modelled. This covers rendering, focus, scrolling, `alert`/`confirm`, the feedback modal (`initFeedbackModal`), the `setMeta` text and the result HTML built in `gradeAll`. assets/worksheet.js and assets/history.js are not part of this model.
- The JavaScript immutability of `sampleWithoutReplacement`'s input is not stated as a contract. It holds trivially, because sequences are values.
- `init` is asynchronous, and a second action while a load is pending could interleave with it. The model treats each transition as atomic.
- Csv.Parse: records are Dafny maps. A header named `__proto__` (which a JavaScript object literal treats specially) behaves like any other name.
- Csv.Parse: strings are sequences of code points. Lone UTF-16 surrogates are not distinguished.
- Text.ToLower: only ASCII letters are lower-cased. JavaScript's full Unicode `toLowerCase` mapping is left out.
- Sampler.SampleWithoutReplacement: the count is "all" or an integer. `Number` coercion of other strings (NaN, fractions) is not modelled.
- Quiz.Init: the `count` setting's falsy values (missing, "", 0, null) are all `Unset`. A stored `0` therefore asks for ten questions, as `|| "10"` does.
- Renumber.FindMatch: `\d` and `\w` (and so `\b`) are restricted to ASCII. Python's Unicode digits and word characters are not modelled.
- Renumber.RenumberIdempotent: holds only when at most 999 ids are written. From 1000 on, the padded id has four digits and no longer matches `T-\d{3}\b` in the same place.
- Renumber.WrittenRoundTrip: requires lines without break characters. That is every line `splitlines` produces (`SplitLinesNoBreak`), but not lines in general.

=== FILE: answers.dfy ===
/** Answer canonicalisation and matching of assets/app.js:
    `toHalfWidthAscii`, `normalizeAnswer`, `getAcceptedAnswers`, and the
    membership test `gradeAll` grades with. */
module Answers {
  import opened Wrappers
  import opened Seqs
  import opened Text
  import opened Csv

  /** A full-width form of a printable ASCII character, U+FF01 to U+FF5E. */
  predicate IsFullWidth(c: char)
  {
    '\U{FF01}' <= c <= '\U{FF5E}'
  }

  const IdeographicSpace: char := '\U{3000}'

  /** The distance between a full-width form and its ASCII character. */
  const FullWidthOffset: int := 0xFEE0

  function HalfWidthChar(c: char): char
  {
    if IsFullWidth(c) then (c as int - FullWidthOffset) as char
    else if c == IdeographicSpace then ' '
    else c
  }

  /** `toHalfWidthAscii`: each full-width form moves down by 0xFEE0 onto
      printable ASCII, the ideographic space becomes a space, and nothing
      else changes, so no full-width form or ideographic space is left. */
  function ToHalfWidthAscii(s: string): string
  {
    Map(HalfWidthChar, s)
  }

  lemma HalfWidthSpec(s: string)
    ensures var r := ToHalfWidthAscii(s);
      && |r| == |s|
      && (forall i :: 0 <= i < |s| && IsFullWidth(s[i]) ==>
            r[i] as int == s[i] as int - FullWidthOffset && '!' <= r[i] <= '~')
      && (forall i :: 0 <= i < |s| && s[i] == IdeographicSpace ==> r[i] == ' ')
      && (forall i :: 0 <= i < |s| && !IsFullWidth(s[i]) && s[i] != IdeographicSpace ==> r[i] == s[i])
      && (forall i :: 0 <= i < |r| ==> !IsFullWidth(r[i]) && r[i] != IdeographicSpace)
  {
  }

  /** A canonical answer: trimmed, no full-width forms, no ideographic space,
      no ASCII capitals. */
  predicate IsNormal(t: string)
  {
    && NoSpaceAtEnds(t)
    && forall i :: 0 <= i < |t| ==> IsNarrow(t[i]) && !IsAsciiUpper(t[i])
  }

  lemma HalfWidthKeepsSpace()
    ensures KeepsSpace(HalfWidthChar)
  {
  }

  lemma LowerKeepsSpace()
    ensures KeepsSpace(LowerChar)
  {
  }

  /** `normalizeAnswer` on a string: half-width, then trim, then lower-case.
      The result is canonical and no longer than the input. */
  function Normalize(s: string): string
  {
    ToLower(Trim(ToHalfWidthAscii(s)))
  }

  /** Neither a full-width form nor the ideographic space. */
  predicate IsNarrow(c: char)
  {
    !IsFullWidth(c) && c != IdeographicSpace
  }

  lemma HalfWidthIsNarrow(s: string)
    ensures forall i :: 0 <= i < |ToHalfWidthAscii(s)| ==> IsNarrow(ToHalfWidthAscii(s)[i])
  {
    HalfWidthSpec(s);
  }

  lemma LowerKeepsNarrow(t: string)
    requires forall i :: 0 <= i < |t| ==> IsNarrow(t[i])
    ensures forall i :: 0 <= i < |ToLower(t)| ==> IsNarrow(ToLower(t)[i])
  {
  }

  lemma LowerKeepsEnds(t: string)
    requires NoSpaceAtEnds(t)
    ensures NoSpaceAtEnds(ToLower(t))
  {
    var r := ToLower(t);
    if |r| > 0 {
      assert r[0] == LowerChar(t[0]);
      assert r[|r| - 1] == LowerChar(t[|t| - 1]);
    }
  }

  /** Normalisation yields a canonical answer no longer than the input. */
  lemma NormalizeFacts(s: string)
    ensures IsNormal(Normalize(s)) && |Normalize(s)| <= |s|
  {
    var h := ToHalfWidthAscii(s);
    HalfWidthIsNarrow(s);
    TrimFacts(h);
    TrimKeepsCharProperty(h, IsNarrow);
    LowerKeepsNarrow(Trim(h));
    LowerKeepsEnds(Trim(h));
  }

  /** `normalizeAnswer`: a missing value (`null` or `undefined`) gives "". */
  function NormalizeAnswer(s: Option<string>): (r: string)
    ensures IsNormal(r)
    ensures s.None? ==> r == ""
    ensures s.Some? ==> |r| <= |s.value|
  {
    match s
    case None => ""
    case Some(x) => NormalizeFacts(x); Normalize(x)
  }

  /** Canonical answers are left alone by normalisation. */
  lemma NormalFixedPoint(t: string)
    requires IsNormal(t)
    ensures Normalize(t) == t
  {
    var h := ToHalfWidthAscii(t);
    assert h == t;
    TrimFacts(t);
  }

  /** Normalising twice is normalising once. */
  lemma NormalizeIdempotent(s: string)
    ensures Normalize(Normalize(s)) == Normalize(s)
  {
    NormalizeFacts(s);
    NormalFixedPoint(Normalize(s));
  }

  /** Case and width folding of one character. */
  function Fold(c: char): char
  {
    LowerChar(HalfWidthChar(c))
  }

  /** Normalisation is folding every character, then trimming. */
  lemma {:induction false} NormalizeIsFoldThenTrim(s: string)
    ensures Normalize(s) == Trim(Map(Fold, s))
  {
    HalfWidthKeepsSpace();
    LowerKeepsSpace();
    assert KeepsSpace(Fold);
    var h := Map(HalfWidthChar, s);
    TrimMap(HalfWidthChar, s);
    TrimMap(Fold, s);
    assert Map(LowerChar, Map(HalfWidthChar, Trim(s))) == Map(Fold, Trim(s));
  }

  /** Answers that differ only in character width or ASCII case normalise to
      the same string (so "Ｔｅｓｔ　１２３" and "test 123" do). */
  lemma NormalizeIgnoresWidthAndCase(s: string, t: string)
    requires |s| == |t|
    requires forall i :: 0 <= i < |s| ==> Fold(s[i]) == Fold(t[i])
    ensures Normalize(s) == Normalize(t)
  {
    NormalizeIsFoldThenTrim(s);
    NormalizeIsFoldThenTrim(t);
    assert Map(Fold, s) == Map(Fold, t);
  }

  /** Trimming before normalising changes nothing. */
  lemma NormalizeIgnoresTrim(s: string)
    ensures Normalize(Trim(s)) == Normalize(s)
  {
    HalfWidthKeepsSpace();
    TrimMap(HalfWidthChar, s);
    TrimIdempotent(Map(HalfWidthChar, s));
  }

  /** An answer normalises to "" exactly when it is all white space
      (ideographic spaces included). */
  lemma NormalizeEmpty(s: string)
    ensures Normalize(s) == "" <==> forall i :: 0 <= i < |s| ==> IsSpace(s[i])
  {
    HalfWidthKeepsSpace();
    var h := ToHalfWidthAscii(s);
    TrimFacts(h);
    assert forall i :: 0 <= i < |s| ==> (IsSpace(h[i]) <==> IsSpace(s[i]));
    assert |ToLower(Trim(h))| == |Trim(h)|;
  }

  /** The `answer` field, `undefined` when the record has none. */
  function AnswerOf(q: Record): Option<string>
  {
    if "answer" in q then Some(q["answer"]) else None
  }

  /** The `|`-separated pieces of `alt_answers` (a missing field reads as ""). */
  function AltSegments(q: Record): seq<string>
  {
    Split(Field(q, "alt_answers"), '|')
  }

  /** JavaScript `filter(Boolean)` on strings keeps the non-empty ones. */
  predicate NonEmpty(s: string)
  {
    s != ""
  }

  /** The trimmed, non-empty ones among some segments. */
  function NonBlankTrimmed(segs: seq<string>): seq<string>
  {
    Filter(NonEmpty, Map(Trim, segs))
  }

  /** The trimmed, non-empty segments of `alt_answers`. */
  function Alternates(q: Record): seq<string>
  {
    NonBlankTrimmed(AltSegments(q))
  }

  /** `getAcceptedAnswers`: the normalised primary answer first, then the
      normalised alternates. */
  function GetAcceptedAnswers(q: Record): (r: seq<string>)
    ensures |r| == 1 + |Alternates(q)|
    ensures r[0] == NormalizeAnswer(AnswerOf(q))
  {
    [NormalizeAnswer(AnswerOf(q))] + Map(Normalize, Alternates(q))
  }

  /** Trimming a segment first changes neither its normal form nor whether
      it counts as blank. */
  lemma TrimThenNormalize(x: string)
    ensures Normalize(Trim(x)) == Normalize(x)
    ensures NonEmpty(Trim(x)) == NonEmpty(Normalize(x))
  {
    NormalizeIgnoresTrim(x);
    if Trim(x) != "" {
      TrimFacts(x);
      TrimmedNonEmpty(Trim(x));
    }
  }

  /** The accepted answers in full: the normalised primary answer, then, in
      order and once each as they occur, the normal forms of the segments of
      `alt_answers` that are not blank. */
  lemma AcceptedInOrder(q: Record)
    ensures GetAcceptedAnswers(q) ==
      [NormalizeAnswer(AnswerOf(q))] + Filter(NonEmpty, Map(Normalize, AltSegments(q)))
  {
    NormalizedKept(AltSegments(q));
  }

  /** Normalising the kept segments is keeping the non-blank normal forms,
      element by element and in order. */
  lemma {:induction false} NormalizedKept(segs: seq<string>)
    ensures Map(Normalize, NonBlankTrimmed(segs)) == Filter(NonEmpty, Map(Normalize, segs))
    decreases |segs|
  {
    if |segs| > 0 {
      NormalizedKept(segs[1..]);
      NormalizedKeptStep(segs);
    }
  }

  /** One step of `NormalizedKept`: both sides unfold on the first segment. */
  lemma NormalizedKeptStep(segs: seq<string>)
    requires |segs| > 0
    requires Map(Normalize, NonBlankTrimmed(segs[1..])) == Filter(NonEmpty, Map(Normalize, segs[1..]))
    ensures Map(Normalize, NonBlankTrimmed(segs)) == Filter(NonEmpty, Map(Normalize, segs))
  {
    TrimThenNormalize(segs[0]);
    MapCons(Trim, segs);
    MapCons(Normalize, segs);
    KeptCons(Trim(segs[0]), Normalize(segs[0]), Map(Trim, segs[1..]), Map(Normalize, segs[1..]));
  }

  /** Putting a segment `a` in front of the trimmed segments and its normal
      form `b` in front of the normal forms keeps the two sides equal. */
  lemma KeptCons(a: string, b: string, ts: seq<string>, ns: seq<string>)
    requires Normalize(a) == b && NonEmpty(a) == NonEmpty(b)
    requires Map(Normalize, Filter(NonEmpty, ts)) == Filter(NonEmpty, ns)
    ensures Map(Normalize, Filter(NonEmpty, [a] + ts)) == Filter(NonEmpty, [b] + ns)
  {
    assert ([a] + ts)[1..] == ts;
    assert ([b] + ns)[1..] == ns;
    if NonEmpty(a) {
      var rest := Filter(NonEmpty, ts);
      assert Map(Normalize, [a] + rest) == [b] + Map(Normalize, rest);
    }
  }

  /** A string is a kept segment exactly when it is the trimming of a
      non-blank segment. */
  lemma NonBlankTrimmedMembers(segs: seq<string>, t: string)
    ensures t in NonBlankTrimmed(segs) <==>
      exists i :: 0 <= i < |segs| && Trim(segs[i]) != "" && Trim(segs[i]) == t
  {
    var trimmed := Map(Trim, segs);
    FilterMembers(NonEmpty, trimmed);
    if t in trimmed {
      var i :| 0 <= i < |trimmed| && trimmed[i] == t;
      assert Trim(segs[i]) == t;
    }
    if exists i :: 0 <= i < |segs| && Trim(segs[i]) != "" && Trim(segs[i]) == t {
      var i :| 0 <= i < |segs| && Trim(segs[i]) != "" && Trim(segs[i]) == t;
      assert trimmed[i] == t;
    }
  }

  /** Every kept segment is trimmed and non-empty. */
  lemma NonBlankTrimmedShape(segs: seq<string>)
    ensures forall k :: 0 <= k < |NonBlankTrimmed(segs)| ==>
      NonBlankTrimmed(segs)[k] != "" && NoSpaceAtEnds(NonBlankTrimmed(segs)[k])
  {
    var alts := NonBlankTrimmed(segs);
    forall k | 0 <= k < |alts|
      ensures alts[k] != "" && NoSpaceAtEnds(alts[k])
    {
      NonBlankTrimmedMembers(segs, alts[k]);
      var i :| 0 <= i < |segs| && Trim(segs[i]) != "" && Trim(segs[i]) == alts[k];
      TrimFacts(segs[i]);
    }
  }

  /** No segment is kept exactly when every segment is blank. */
  lemma NonBlankTrimmedEmpty(segs: seq<string>)
    ensures |NonBlankTrimmed(segs)| == 0 <==> forall i :: 0 <= i < |segs| ==> Trim(segs[i]) == ""
  {
    var alts := NonBlankTrimmed(segs);
    if |alts| == 0 {
      forall i | 0 <= i < |segs|
        ensures Trim(segs[i]) == ""
      {
        NonBlankTrimmedMembers(segs, Trim(segs[i]));
      }
    } else {
      NonBlankTrimmedMembers(segs, alts[0]);
    }
  }

  /** A trimmed non-empty string normalises to a non-empty string. */
  lemma TrimmedNonEmpty(t: string)
    requires t != "" && NoSpaceAtEnds(t)
    ensures Normalize(t) != ""
  {
    NormalizeEmpty(t);
    assert !IsSpace(t[0]);
  }

  /** Every accepted answer is canonical, every accepted alternate is
      non-empty, and there is no alternate at all exactly when every segment
      of `alt_answers` is blank (in particular when the field is missing). */
  lemma AcceptedAnswersShape(q: Record)
    ensures forall i :: 0 <= i < |GetAcceptedAnswers(q)| ==> IsNormal(GetAcceptedAnswers(q)[i])
    ensures forall i :: 1 <= i < |GetAcceptedAnswers(q)| ==> GetAcceptedAnswers(q)[i] != ""
    ensures |GetAcceptedAnswers(q)| == 1 <==>
      forall i :: 0 <= i < |AltSegments(q)| ==> Trim(AltSegments(q)[i]) == ""
  {
    var r := GetAcceptedAnswers(q);
    var alts := Alternates(q);
    NonBlankTrimmedShape(AltSegments(q));
    NonBlankTrimmedEmpty(AltSegments(q));
    NormalizedAlternates(alts);
    assert r == [r[0]] + Map(Normalize, alts);
  }

  /** Trimmed non-empty alternates normalise to canonical non-empty answers. */
  lemma NormalizedAlternates(alts: seq<string>)
    requires forall k :: 0 <= k < |alts| ==> alts[k] != "" && NoSpaceAtEnds(alts[k])
    ensures forall k :: 0 <= k < |alts| ==> IsNormal(Map(Normalize, alts)[k]) && Map(Normalize, alts)[k] != ""
  {
    forall k | 0 <= k < |alts|
      ensures IsNormal(Normalize(alts[k])) && Normalize(alts[k]) != ""
    {
      TrimmedNonEmpty(alts[k]);
      NormalizeFacts(alts[k]);
    }
  }

  /** A string is an accepted alternate exactly when some non-blank segment
      of `alt_answers` normalises to it. */
  lemma AcceptedAlternates(q: Record, x: string)
    ensures x in GetAcceptedAnswers(q)[1..] <==>
      exists i :: 0 <= i < |AltSegments(q)| && Trim(AltSegments(q)[i]) != "" && Normalize(AltSegments(q)[i]) == x
  {
    var segs := AltSegments(q);
    var alts := Alternates(q);
    assert GetAcceptedAnswers(q)[1..] == Map(Normalize, alts);
    if x in Map(Normalize, alts) {
      var k :| 0 <= k < |alts| && Normalize(alts[k]) == x;
      NonBlankTrimmedMembers(segs, alts[k]);
      var i :| 0 <= i < |segs| && Trim(segs[i]) != "" && Trim(segs[i]) == alts[k];
      NormalizeIgnoresTrim(segs[i]);
    }
    if exists i :: 0 <= i < |segs| && Trim(segs[i]) != "" && Normalize(segs[i]) == x {
      var i :| 0 <= i < |segs| && Trim(segs[i]) != "" && Normalize(segs[i]) == x;
      NonBlankTrimmedMembers(segs, Trim(segs[i]));
      NormalizeIgnoresTrim(segs[i]);
      var k :| 0 <= k < |alts| && alts[k] == Trim(segs[i]);
      assert Map(Normalize, alts)[k] == x;
    }
  }

  /** The grading test of `gradeAll`: the normalised input is one of the
      accepted answers. */
  predicate IsCorrect(q: Record, user: string)
  {
    Normalize(user) in GetAcceptedAnswers(q)
  }

  /** An input is correct exactly when it normalises like the primary answer
      or like some non-blank alternate. */
  lemma IsCorrectIff(q: Record, user: string)
    ensures IsCorrect(q, user) <==>
      || Normalize(user) == NormalizeAnswer(AnswerOf(q))
      || exists i :: 0 <= i < |AltSegments(q)| && Trim(AltSegments(q)[i]) != "" && Normalize(AltSegments(q)[i]) == Normalize(user)
  {
    var r := GetAcceptedAnswers(q);
    assert r == [r[0]] + r[1..];
    AcceptedAlternates(q, Normalize(user));
  }

  /** A blank input is graded correct only when the primary answer itself
      normalises to "", which a loaded question never does. */
  lemma BlankInputIncorrect(q: Record, user: string)
    requires forall i :: 0 <= i < |user| ==> IsSpace(user[i])
    ensures IsCorrect(q, user) <==> NormalizeAnswer(AnswerOf(q)) == ""
  {
    NormalizeEmpty(user);
    AcceptedAnswersShape(q);
    var r := GetAcceptedAnswers(q);
    assert r == [r[0]] + r[1..];
  }
}

=== FILE: csv.dfy ===
/** The CSV reader of assets/app.js (`parseCSV`): a two-state character
    scanner producing rows of cells, followed by blank-row removal and the
    mapping of every data row onto the header row. */
module Csv {
  import opened Text
  import opened Seqs

  /** One parsed line of the file: field name to trimmed field value. */
  type Record = map<string, string>

  /** Reading a field the way `(q.key ?? "")` does: a missing key reads as "". */
  function Field(q: Record, key: string): string
  {
    if key in q then q[key] else ""
  }

  /** The scanner's variables: rows finished so far, the cells of the row
      being built, the text of the cell being built, and the quote state. */
  datatype Scanner = Scanner(rows: seq<seq<string>>, row: seq<string>, cur: string, inQuotes: bool)

  const Start := Scanner([], [], "", false)

  /** A line terminator ends the current cell and the current row. */
  function EndRow(st: Scanner): Scanner
  {
    Scanner(st.rows + [st.row + [st.cur]], [], "", st.inQuotes)
  }

  /** What one iteration of the scanning loop does: how many characters it
      consumes (two for an escaped quote or a CRLF pair, else one) and the
      scanner it leaves behind. */
  datatype Move = Move(consumed: nat, next: Scanner)

  /** One iteration of the loop on the first character of `s`, with the
      character after it as look-ahead. */
  function Step(s: string, st: Scanner): (m: Move)
    requires |s| > 0
    ensures 1 <= m.consumed <= |s|
  {
    var c := s[0];
    var lookahead := if |s| > 1 then s[1] else c;
    if c == '"' then
      if st.inQuotes && |s| > 1 && lookahead == '"' then Move(2, st.(cur := st.cur + ['"']))
      else Move(1, st.(inQuotes := !st.inQuotes))
    else if !st.inQuotes && c == ',' then
      Move(1, st.(row := st.row + [st.cur], cur := ""))
    else if !st.inQuotes && (c == '\n' || c == '\r') then
      Move(if c == '\r' && |s| > 1 && lookahead == '\n' then 2 else 1, EndRow(st))
    else
      Move(1, st.(cur := st.cur + [c]))
  }

  /** Runs the scanner over the remaining text `s`. */
  function Scan(s: string, st: Scanner): Scanner
    decreases |s|
  {
    if |s| == 0 then st
    else
      var m := Step(s, st);
      Scan(s[m.consumed..], m.next)
  }

  /** End of input: a partly built row (or a non-empty last cell) is flushed. */
  function Flush(st: Scanner): seq<seq<string>>
  {
    if |st.cur| > 0 || |st.row| > 0 then st.rows + [st.row + [st.cur]] else st.rows
  }

  /** The raw rows of `text`, before blank-row removal. */
  function Rows(text: string): seq<seq<string>>
  {
    Flush(Scan(text, Start))
  }

  /** The index-based loop of `parseCSV`, including the extra `i++` that
      consumes the second character of an escaped quote or of a CRLF pair. It
      computes exactly the rows of the recursive scanner. */
  method ParseRows(text: string) returns (rows: seq<seq<string>>)
    ensures rows == Rows(text)
  {
    rows := [];
    var row: seq<string> := [];
    var cur: string := "";
    var inQuotes := false;
    var i := 0;
    while i < |text|
      invariant 0 <= i <= |text|
      invariant Scan(text[i..], Scanner(rows, row, cur, inQuotes)) == Scan(text, Start)
      decreases |text| - i
    {
      var c := text[i];
      var hasNext := i + 1 < |text|;
      assert text[i..][0] == c;
      assert text[i..][1..] == text[i + 1..];
      if hasNext {
        assert text[i..][1] == text[i + 1];
        assert text[i..][2..] == text[i + 2..];
      }
      if c == '"' {
        if inQuotes && hasNext && text[i + 1] == '"' {
          cur := cur + ['"'];
          i := i + 2;
        } else {
          inQuotes := !inQuotes;
          i := i + 1;
        }
      } else if !inQuotes && (c == ',' || c == '\n' || c == '\r') {
        if c == ',' {
          row := row + [cur];
          cur := "";
          i := i + 1;
        } else {
          if c == '\r' && hasNext && text[i + 1] == '\n' {
            i := i + 2;
          } else {
            i := i + 1;
          }
          rows := rows + [row + [cur]];
          row := [];
          cur := "";
        }
      } else {
        cur := cur + [c];
        i := i + 1;
      }
    }
    if |cur| > 0 || |row| > 0 {
      rows := rows + [row + [cur]];
    }
  }

  /** A row survives cleaning when some cell is non-blank after trimming. */
  predicate NonBlank(row: seq<string>)
  {
    exists j :: 0 <= j < |row| && Trim(row[j]) != ""
  }

  /** The value a record takes from column `j` of a data row: the trimmed
      cell, or "" when the row is shorter than the header. */
  function CellAt(row: seq<string>, j: nat): string
  {
    if j < |row| then Trim(row[j]) else ""
  }

  /** Column `j` is the last of the first `n` header columns with its name. */
  predicate LastOccurrence(header: seq<string>, n: nat, j: nat)
    requires j < n <= |header|
  {
    forall k :: j < k < n ==> header[k] != header[j]
  }

  /** The object built by `header.forEach((h, idx) => obj[h] = ...)` after the
      first `n` header columns: its keys are those header names, and each name
      holds the cell of the last column carrying that name. */
  function Assign(header: seq<string>, row: seq<string>, n: nat): (r: Record)
    requires n <= |header|
    ensures forall k :: k in r <==> k in header[..n]
    ensures forall j :: 0 <= j < n && LastOccurrence(header, n, j) ==> r[header[j]] == CellAt(row, j)
    decreases n
  {
    if n == 0 then map[]
    else
      var prev := Assign(header, row, n - 1);
      AssignStep(header, row, n, prev);
      prev[header[n - 1] := CellAt(row, n - 1)]
  }

  /** One `forEach` step keeps the two facts `Assign` promises. */
  lemma AssignStep(header: seq<string>, row: seq<string>, n: nat, prev: Record)
    requires 0 < n <= |header|
    requires forall k :: k in prev <==> k in header[..n - 1]
    requires forall j :: 0 <= j < n - 1 && LastOccurrence(header, n - 1, j) ==> prev[header[j]] == CellAt(row, j)
    ensures var r := prev[header[n - 1] := CellAt(row, n - 1)];
      && (forall k :: k in r <==> k in header[..n])
      && forall j :: 0 <= j < n && LastOccurrence(header, n, j) ==> r[header[j]] == CellAt(row, j)
  {
    var r := prev[header[n - 1] := CellAt(row, n - 1)];
    AssignKeys(header, n, prev, r);
    forall j | 0 <= j < n && LastOccurrence(header, n, j)
      ensures r[header[j]] == CellAt(row, j)
    {
      if j < n - 1 {
        assert header[n - 1] != header[j];
        assert LastOccurrence(header, n - 1, j);
        assert r[header[j]] == prev[header[j]];
      }
    }
  }

  lemma AssignKeys(header: seq<string>, n: nat, prev: Record, r: Record)
    requires 0 < n <= |header|
    requires forall k :: k in prev <==> k in header[..n - 1]
    requires r.Keys == prev.Keys + {header[n - 1]}
    ensures forall k :: k in r <==> k in header[..n]
  {
    assert header[..n] == header[..n - 1] + [header[n - 1]];
  }

  /** One data row mapped onto the (already trimmed) header. */
  function MakeRecord(header: seq<string>, row: seq<string>): (r: Record)
    ensures forall k :: k in r <==> k in header
    ensures forall j :: 0 <= j < |header| && LastOccurrence(header, |header|, j) ==> r[header[j]] == CellAt(row, j)
  {
    assert header[..|header|] == header;
    Assign(header, row, |header|)
  }

  /** Trims every cell of the header row. */
  function TrimAll(row: seq<string>): (r: seq<string>)
    ensures |r| == |row|
    ensures forall j :: 0 <= j < |row| ==> r[j] == Trim(row[j])
  {
    seq(|row|, j requires 0 <= j < |row| => Trim(row[j]))
  }

  /** The trimmed header: no name starts or ends with white space, trimming
      it again changes nothing, and a header whose names are already trimmed
      is kept as it is. */
  lemma TrimAllTrims(row: seq<string>)
    ensures forall j :: 0 <= j < |row| ==> NoSpaceAtEnds(TrimAll(row)[j])
    ensures TrimAll(TrimAll(row)) == TrimAll(row)
    ensures (forall j :: 0 <= j < |row| ==> NoSpaceAtEnds(row[j])) ==> TrimAll(row) == row
  {
    forall j | 0 <= j < |row|
      ensures NoSpaceAtEnds(TrimAll(row)[j]) && Trim(TrimAll(row)[j]) == TrimAll(row)[j]
      ensures NoSpaceAtEnds(row[j]) ==> TrimAll(row)[j] == row[j]
    {
      TrimFacts(row[j]);
      TrimFacts(Trim(row[j]));
    }
  }

  /** Post-processing of the raw rows: blank rows go, then the header mapping. */
  function Records(rows: seq<seq<string>>): seq<Record>
  {
    HeaderMap(Filter(NonBlank, rows))
  }

  /** The first row is the header (trimmed); every later row becomes one
      record, in order. No rows at all gives no records. */
  function HeaderMap(cleaned: seq<seq<string>>): (r: seq<Record>)
    ensures |r| == if |cleaned| == 0 then 0 else |cleaned| - 1
  {
    if |cleaned| == 0 then []
    else
      var header := TrimAll(cleaned[0]);
      seq(|cleaned| - 1, i requires 0 <= i < |cleaned| - 1 => MakeRecord(header, cleaned[i + 1]))
  }

  /** `parseCSV`: total on every input. */
  function Parse(text: string): seq<Record>
  {
    Records(Rows(text))
  }
}

=== FILE: csv_props.dfy ===
/** Properties of the CSV reader: quoted fields decode to their contents, an
    RFC 4180 style writer (quoted or plain cells, LF, CR LF or bare CR line
    ends) is inverted by the scanner, the three line ends read the same, a
    missing final line terminator does not matter, and blank rows are ignored
    wherever they appear. */
module CsvProps {
  import opened Text
  import opened Seqs
  import opened Csv

  /** Every `"` doubled, as a quoted CSV field writes it. */
  function EscapeQuotes(v: string): string
    decreases |v|
  {
    if |v| == 0 then []
    else (if v[0] == '"' then ['"', '"'] else [v[0]]) + EscapeQuotes(v[1..])
  }

  /** A field written between double quotes. */
  function Quote(v: string): string
  {
    ['"'] + EscapeQuotes(v) + ['"']
  }

  /** How a writer puts a cell on the page: between double quotes with every
      inner quote doubled, or as it is. */
  datatype Style = Quoted | Plain

  /** The line terminator a writer puts after every row. */
  datatype Eol = LF | CRLF | CR

  function EolText(e: Eol): string
  {
    match e
    case LF => "\n"
    case CRLF => "\r\n"
    case CR => "\r"
  }

  /** A cell that can be written without quotes: no quote, comma or line break. */
  predicate PlainCell(v: string)
  {
    forall i :: 0 <= i < |v| ==> v[i] != '"' && v[i] != ',' && v[i] != '\n' && v[i] != '\r'
  }

  /** A table the writer can write so that it reads back: every row has a
      cell, and unquoted cells are plain. */
  predicate Writable(style: Style, t: seq<seq<string>>)
  {
    forall i :: 0 <= i < |t| ==>
      && |t[i]| > 0
      && (style.Plain? ==> forall j :: 0 <= j < |t[i]| ==> PlainCell(t[i][j]))
  }

  function EncodeCell(style: Style, v: string): string
  {
    match style
    case Quoted => Quote(v)
    case Plain => v
  }

  /** A row written as cells separated by commas. */
  function EncodeRow(style: Style, cells: seq<string>): string
    decreases |cells|
  {
    if |cells| <= 1 then (if |cells| == 0 then [] else EncodeCell(style, cells[0]))
    else EncodeCell(style, cells[0]) + [','] + EncodeRow(style, cells[1..])
  }

  /** A table written one row per line, each row followed by the terminator. */
  function EncodeTable(style: Style, e: Eol, t: seq<seq<string>>): string
    decreases |t|
  {
    if |t| == 0 then [] else EncodeRow(style, t[0]) + (EolText(e) + EncodeTable(style, e, t[1..]))
  }

  /** Inside quotes, `""` yields one `"`, and commas, CR and LF are kept as text;
      the closing quote (not followed by another quote) leaves quoted mode. */
  lemma {:induction false} InsideQuotes(v: string, rest: string, st: Scanner)
    requires st.inQuotes
    requires |rest| == 0 || rest[0] != '"'
    ensures Scan(EscapeQuotes(v) + ['"'] + rest, st) == Scan(rest, st.(cur := st.cur + v, inQuotes := false))
    decreases |v|
  {
    if |v| == 0 {
      CloseQuote(rest, st);
      assert st.cur + v == st.cur;
    } else {
      var st' := st.(cur := st.cur + [v[0]]);
      QuotedChar(v, rest, st);
      InsideQuotes(v[1..], rest, st');
      calc {
        st'.(cur := st'.cur + v[1..], inQuotes := false);
        Scanner(st.rows, st.row, st.cur + [v[0]] + v[1..], false);
        { assert st.cur + [v[0]] + v[1..] == st.cur + v by { assert v == [v[0]] + v[1..]; } }
        st.(cur := st.cur + v, inQuotes := false);
      }
    }
  }

  /** The closing quote of a quoted field. */
  lemma CloseQuote(rest: string, st: Scanner)
    requires st.inQuotes
    requires |rest| == 0 || rest[0] != '"'
    ensures Scan(['"'] + rest, st) == Scan(rest, st.(inQuotes := false))
  {
    var s := ['"'] + rest;
    assert s[1..] == rest;
    assert Step(s, st) == Move(1, st.(inQuotes := false));
  }

  /** One character of a quoted field's contents, as written by `EscapeQuotes`. */
  lemma QuotedChar(v: string, rest: string, st: Scanner)
    requires st.inQuotes && |v| > 0
    ensures Scan(EscapeQuotes(v) + ['"'] + rest, st) == Scan(EscapeQuotes(v[1..]) + ['"'] + rest, st.(cur := st.cur + [v[0]]))
  {
    var s := EscapeQuotes(v) + ['"'] + rest;
    var tail := EscapeQuotes(v[1..]) + ['"'] + rest;
    if v[0] == '"' {
      assert s == ['"', '"'] + tail;
      assert s[2..] == tail;
      assert Step(s, st) == Move(2, st.(cur := st.cur + [v[0]]));
    } else {
      assert s == [v[0]] + tail;
      assert s[1..] == tail;
      assert Step(s, st) == Move(1, st.(cur := st.cur + [v[0]]));
    }
  }

  /** A quoted field decodes to exactly its contents. The cell text built so
      far is kept, so a quote opening in the middle of an unquoted cell also
      enters quoted mode and splices its contents into that cell. */
  lemma {:induction false} QuotedField(v: string, rest: string, st: Scanner)
    requires !st.inQuotes
    requires |rest| == 0 || rest[0] != '"'
    ensures Scan(Quote(v) + rest, st) == Scan(rest, st.(cur := st.cur + v))
  {
    var body := EscapeQuotes(v) + ['"'] + rest;
    var s := Quote(v) + rest;
    assert s == ['"'] + body;
    assert s[0] == '"' && s[1..] == body;
    var st1 := st.(inQuotes := true);
    assert Step(s, st) == Move(1, st1);
    assert Scan(s, st) == Scan(body, st1);
    InsideQuotes(v, rest, st1);
    assert st1.(cur := st.cur + v, inQuotes := false) == st.(cur := st.cur + v);
    assert Scan(s, st) == Scan(rest, st1.(cur := st.cur + v, inQuotes := false));
    assert Scan(s, st) == Scan(rest, st.(cur := st.cur + v));
  }

  /** A written cell adds exactly its contents to the current cell. */
  lemma CellRoundTrip(style: Style, v: string, rest: string, st: Scanner)
    requires !st.inQuotes
    requires style.Plain? ==> PlainCell(v)
    requires |rest| == 0 || rest[0] != '"'
    ensures Scan(EncodeCell(style, v) + rest, st) == Scan(rest, st.(cur := st.cur + v))
  {
    match style
    case Quoted => QuotedField(v, rest, st);
    case Plain => PlainText(v, rest, st);
  }

  /** The cells of an encoded row are read back as that row's cells, the last
      of them still open, whatever comes after it (short of a quote). */
  lemma {:induction false} RowCells(style: Style, cells: seq<string>, tail: string, st: Scanner)
    requires |cells| > 0
    requires style.Plain? ==> forall j :: 0 <= j < |cells| ==> PlainCell(cells[j])
    requires |tail| == 0 || tail[0] != '"'
    requires !st.inQuotes && st.cur == ""
    ensures Scan(EncodeRow(style, cells) + tail, st)
         == Scan(tail, st.(row := st.row + cells[..|cells| - 1], cur := cells[|cells| - 1]))
    decreases |cells|
  {
    if |cells| == 1 {
      OnlyCell(style, cells, tail, st);
    } else {
      RowCells(style, cells[1..], tail, st.(row := st.row + [cells[0]], cur := ""));
      RowCellsStep(style, cells, tail, st);
    }
  }

  /** The first cell and its comma, then the rest of the row. */
  lemma RowCellsStep(style: Style, cells: seq<string>, tail: string, st: Scanner)
    requires |cells| > 1
    requires style.Plain? ==> PlainCell(cells[0])
    requires !st.inQuotes && st.cur == ""
    requires var st2 := st.(row := st.row + [cells[0]], cur := "");
      var cells' := cells[1..];
      Scan(EncodeRow(style, cells') + tail, st2)
        == Scan(tail, st2.(row := st2.row + cells'[..|cells'| - 1], cur := cells'[|cells'| - 1]))
    ensures Scan(EncodeRow(style, cells) + tail, st)
         == Scan(tail, st.(row := st.row + cells[..|cells| - 1], cur := cells[|cells| - 1]))
  {
    EncodeRowCons(style, cells, tail);
    CellThenComma(style, cells[0], EncodeRow(style, cells[1..]) + tail, st);
    ShiftRow(st, cells);
  }

  /** A row of several cells is its first cell, a comma, and the rest. */
  lemma EncodeRowCons(style: Style, cells: seq<string>, tail: string)
    requires |cells| > 1
    ensures EncodeRow(style, cells) + tail == EncodeCell(style, cells[0]) + ([','] + (EncodeRow(style, cells[1..]) + tail))
  {
  }

  /** Closing the first cell and then all but the last of the others is
      closing all but the last cell. */
  lemma ShiftRow(st: Scanner, cells: seq<string>)
    requires |cells| > 1
    ensures var st2 := st.(row := st.row + [cells[0]], cur := "");
      var cells' := cells[1..];
      st2.(row := st2.row + cells'[..|cells'| - 1], cur := cells'[|cells'| - 1])
        == st.(row := st.row + cells[..|cells| - 1], cur := cells[|cells| - 1])
  {
    var cells' := cells[1..];
    assert cells[..|cells| - 1] == [cells[0]] + cells'[..|cells'| - 1];
    assert st.row + [cells[0]] + cells'[..|cells'| - 1] == st.row + cells[..|cells| - 1];
  }

  /** A row of one cell leaves that cell open. */
  lemma OnlyCell(style: Style, cells: seq<string>, tail: string, st: Scanner)
    requires |cells| == 1
    requires !st.inQuotes && st.cur == ""
    requires style.Plain? ==> PlainCell(cells[0])
    requires |tail| == 0 || tail[0] != '"'
    ensures Scan(EncodeRow(style, cells) + tail, st) == Scan(tail, st.(row := st.row + cells[..0], cur := cells[0]))
  {
    var c := cells[0];
    assert EncodeRow(style, cells) == EncodeCell(style, c);
    CellRoundTrip(style, c, tail, st);
    assert st.cur + c == c;
    assert st.row + cells[..0] == st.row;
  }

  /** A written cell and the comma after it add that cell to the row. */
  lemma CellThenComma(style: Style, c: string, more: string, st: Scanner)
    requires !st.inQuotes && st.cur == ""
    requires style.Plain? ==> PlainCell(c)
    ensures Scan(EncodeCell(style, c) + ([','] + more), st) == Scan(more, st.(row := st.row + [c], cur := ""))
  {
    CellRoundTrip(style, c, [','] + more, st);
    var st1 := st.(cur := st.cur + c);
    CellEnd(more, st1);
    assert st1.cur == c by { assert st.cur + c == c; }
  }

  /** An encoded row followed by a line terminator is read back as exactly
      that row. A bare CR must not be followed by LF, which would join the two
      into one CRLF. */
  lemma RowRoundTrip(style: Style, e: Eol, cells: seq<string>, rest: string, st: Scanner)
    requires |cells| > 0
    requires style.Plain? ==> forall j :: 0 <= j < |cells| ==> PlainCell(cells[j])
    requires e == CR ==> |rest| == 0 || rest[0] != '\n'
    requires !st.inQuotes && st.cur == ""
    ensures Scan(EncodeRow(style, cells) + (EolText(e) + rest), st) == Scan(rest, Scanner(st.rows + [st.row + cells], [], "", false))
  {
    var st1 := st.(row := st.row + cells[..|cells| - 1], cur := cells[|cells| - 1]);
    RowCells(style, cells, EolText(e) + rest, st);
    RowEnd(e, rest, st1);
    CloseRow(cells, st);
  }

  /** Ending the row after its last cell leaves that row, whole, behind. */
  lemma CloseRow(cells: seq<string>, st: Scanner)
    requires |cells| > 0
    ensures EndRow(st.(row := st.row + cells[..|cells| - 1], cur := cells[|cells| - 1]))
         == Scanner(st.rows + [st.row + cells], [], "", st.inQuotes)
  {
    assert cells == cells[..|cells| - 1] + [cells[|cells| - 1]];
    assert st.row + cells[..|cells| - 1] + [cells[|cells| - 1]] == st.row + cells;
  }

  /** An unquoted comma ends the cell. */
  lemma CellEnd(rest: string, st: Scanner)
    requires !st.inQuotes
    ensures Scan([','] + rest, st) == Scan(rest, st.(row := st.row + [st.cur], cur := ""))
  {
    var s := [','] + rest;
    assert s[1..] == rest;
    assert Step(s, st) == Move(1, st.(row := st.row + [st.cur], cur := ""));
  }

  /** An unquoted LF ends the cell and the row. */
  lemma LineEnd(rest: string, st: Scanner)
    requires !st.inQuotes
    ensures Scan(['\n'] + rest, st) == Scan(rest, EndRow(st))
  {
    var s := ['\n'] + rest;
    assert s[1..] == rest;
    assert Step(s, st) == Move(1, EndRow(st));
  }

  /** An unquoted CR LF pair ends the cell and the row once. */
  lemma CrlfEnd(rest: string, st: Scanner)
    requires !st.inQuotes
    ensures Scan(['\r', '\n'] + rest, st) == Scan(rest, EndRow(st))
  {
    var s := ['\r', '\n'] + rest;
    assert s[2..] == rest;
    assert Step(s, st) == Move(2, EndRow(st));
  }

  /** An unquoted CR that is not followed by LF ends the cell and the row. */
  lemma BareCrEnd(rest: string, st: Scanner)
    requires !st.inQuotes
    requires |rest| == 0 || rest[0] != '\n'
    ensures Scan(['\r'] + rest, st) == Scan(rest, EndRow(st))
  {
    var s := ['\r'] + rest;
    assert s[1..] == rest;
    assert Step(s, st) == Move(1, EndRow(st));
  }

  /** Each of the three terminators ends the row. */
  lemma RowEnd(e: Eol, rest: string, st: Scanner)
    requires !st.inQuotes
    requires e == CR ==> |rest| == 0 || rest[0] != '\n'
    ensures Scan(EolText(e) + rest, st) == Scan(rest, EndRow(st))
  {
    match e
    case LF => LineEnd(rest, st);
    case CRLF => assert EolText(e) + rest == ['\r', '\n'] + rest; CrlfEnd(rest, st);
    case CR => BareCrEnd(rest, st);
  }

  /** A written table never starts with LF, so a bare CR before it stays a
      terminator of its own. */
  lemma NoLeadingLf(style: Style, e: Eol, t: seq<seq<string>>)
    requires Writable(style, t)
    requires e != LF
    ensures var s := EncodeTable(style, e, t); |s| == 0 || s[0] != '\n'
  {
    if |t| > 0 {
      var cells := t[0];
      var s := EncodeTable(style, e, t);
      var tail := EolText(e) + EncodeTable(style, e, t[1..]);
      assert s == EncodeRow(style, cells) + tail;
      assert tail[0] == '\r';
      if style.Quoted? {
        assert s[0] == '"';
      } else if |cells[0]| > 0 {
        assert PlainCell(cells[0]);
        assert s[0] == cells[0][0];
      } else if |cells| == 1 {
        assert s == tail;
      } else {
        assert EncodeRow(style, cells) == [','] + EncodeRow(style, cells[1..]);
      }
    }
  }

  /** The scanner inverts the writer: every writable table is read back
      cell for cell, whatever the cells contain when they are quoted. */
  lemma {:induction false} TableRoundTrip(style: Style, e: Eol, t: seq<seq<string>>, st: Scanner)
    requires Writable(style, t)
    requires !st.inQuotes && st.cur == "" && st.row == []
    ensures Scan(EncodeTable(style, e, t), st) == Scanner(st.rows + t, [], "", false)
    decreases |t|
  {
    if |t| == 0 {
      assert st.rows + t == st.rows;
      assert st == Scanner(st.rows, [], "", false);
    } else {
      var st' := Scanner(st.rows + [t[0]], [], "", false);
      WritableRest(style, t);
      TableRoundTrip(style, e, t[1..], st');
      FirstRowThenRest(st.rows, t);
      if e == CR {
        NoLeadingLf(style, e, t[1..]);
      }
      TableStep(style, e, t[0], EncodeTable(style, e, t[1..]), st, Scanner(st.rows + t, [], "", false));
    }
  }

  /** What the writer accepts of a table it accepts of its tail. */
  lemma WritableRest(style: Style, t: seq<seq<string>>)
    requires Writable(style, t) && |t| > 0
    ensures Writable(style, t[1..])
    ensures |t[0]| > 0 && (style.Plain? ==> forall j :: 0 <= j < |t[0]| ==> PlainCell(t[0][j]))
  {
    forall i | 0 <= i < |t[1..]|
      ensures t[1..][i] == t[i + 1]
    {
    }
  }

  lemma FirstRowThenRest(rows: seq<seq<string>>, t: seq<seq<string>>)
    requires |t| > 0
    ensures Scanner(rows + [t[0]] + t[1..], [], "", false) == Scanner(rows + t, [], "", false)
  {
    assert t == [t[0]] + t[1..];
    assert rows + [t[0]] + t[1..] == rows + t;
  }

  /** The first row of a table, then whatever the rest of the text reads as. */
  lemma TableStep(style: Style, e: Eol, row: seq<string>, rest: string, st: Scanner, after: Scanner)
    requires |row| > 0
    requires style.Plain? ==> forall j :: 0 <= j < |row| ==> PlainCell(row[j])
    requires e == CR ==> |rest| == 0 || rest[0] != '\n'
    requires !st.inQuotes && st.cur == "" && st.row == []
    requires Scan(rest, Scanner(st.rows + [row], [], "", false)) == after
    ensures Scan(EncodeRow(style, row) + (EolText(e) + rest), st) == after
  {
    FreshRow(st, row);
    RowRoundTrip(style, e, row, rest, st);
  }

  /** Closing a row started from nothing leaves exactly that row. */
  lemma FreshRow(st: Scanner, row: seq<string>)
    requires st.row == []
    ensures Scanner(st.rows + [st.row + row], [], "", false) == Scanner(st.rows + [row], [], "", false)
  {
    assert st.row + row == row;
  }

  /** The raw rows of a written table are that table, with any terminator. */
  lemma RowsOfEncodedTable(style: Style, e: Eol, t: seq<seq<string>>)
    requires Writable(style, t)
    ensures Rows(EncodeTable(style, e, t)) == t
  {
    TableRoundTrip(style, e, t, Start);
    assert Start.rows + t == t;
  }

  /** LF, CR LF and a bare CR are interchangeable row terminators, for quoted
      and plain writing alike. */
  lemma LineEndsAgree(style: Style, t: seq<seq<string>>)
    requires Writable(style, t)
    ensures Parse(EncodeTable(style, CRLF, t)) == Parse(EncodeTable(style, LF, t))
    ensures Parse(EncodeTable(style, CR, t)) == Parse(EncodeTable(style, LF, t))
  {
    RowsOfEncodedTable(style, LF, t);
    RowsOfEncodedTable(style, CRLF, t);
    RowsOfEncodedTable(style, CR, t);
  }

  /** Every LF replaced by CR LF. */
  function LfToCrlf(s: string): string
    decreases |s|
  {
    if |s| == 0 then []
    else (if s[0] == '\n' then ['\r', '\n'] else [s[0]]) + LfToCrlf(s[1..])
  }

  /** CRLF is consumed as a single row terminator: on text without quotes or
      CRs, writing every line end as CR LF reads the same as LF. */
  lemma {:induction false} CrlfScansAsLf(s: string, st: Scanner)
    requires '"' !in s && '\r' !in s
    requires !st.inQuotes
    ensures Scan(LfToCrlf(s), st) == Scan(s, st)
    decreases |s|
  {
    if |s| > 0 {
      var t := LfToCrlf(s);
      if s[0] == '\n' {
        assert t == ['\r', '\n'] + LfToCrlf(s[1..]);
        assert t[2..] == LfToCrlf(s[1..]);
        CrlfScansAsLf(s[1..], EndRow(st));
      } else {
        assert t == [s[0]] + LfToCrlf(s[1..]);
        assert t[1..] == LfToCrlf(s[1..]);
        var st' := if s[0] == ',' then st.(row := st.row + [st.cur], cur := "") else st.(cur := st.cur + [s[0]]);
        CrlfScansAsLf(s[1..], st');
      }
    }
  }

  /** The same at the level of records, for any quote-free text; tables with
      quoted cells are covered by `LineEndsAgree`. */
  lemma CrlfParsesAsLf(s: string)
    requires '"' !in s && '\r' !in s
    ensures Parse(LfToCrlf(s)) == Parse(s)
  {
    CrlfScansAsLf(s, Start);
  }

  /** Appending LF to text that ends outside quotes either changes nothing,
      which happens only when the text ends with a CR that already ended the
      row, or ends the last row. */
  lemma {:induction false} AppendNewline(s: string, st: Scanner)
    requires !Scan(s, st).inQuotes
    ensures var f := Scan(s, st);
      || (Scan(s + ['\n'], st) == f && f.row == [] && f.cur == "" && |s| > 0 && s[|s| - 1] == '\r')
      || Scan(s + ['\n'], st) == EndRow(f)
    decreases |s|
  {
    var s' := s + ['\n'];
    if |s| == 0 {
      assert s' == ['\n'];
      assert s'[1..] == [];
    } else {
      var c := s[0];
      assert s'[0] == c;
      assert s'[1..] == s[1..] + ['\n'];
      if |s| > 1 {
        assert s'[1] == s[1];
        assert s'[2..] == s[2..] + ['\n'];
      }
      if c == '"' {
        if st.inQuotes && |s| > 1 && s[1] == '"' {
          AppendNewline(s[2..], st.(cur := st.cur + ['"']));
        } else {
          AppendNewline(s[1..], st.(inQuotes := !st.inQuotes));
        }
      } else if !st.inQuotes && c == ',' {
        AppendNewline(s[1..], st.(row := st.row + [st.cur], cur := ""));
      } else if !st.inQuotes && (c == '\n' || c == '\r') {
        if c == '\r' && |s| == 1 {
          assert s'[2..] == [];
        } else if c == '\r' && s[1] == '\n' {
          AppendNewline(s[2..], EndRow(st));
        } else {
          AppendNewline(s[1..], EndRow(st));
        }
      } else {
        AppendNewline(s[1..], st.(cur := st.cur + [c]));
      }
    }
  }

  /** A row whose cells are all blank contributes nothing. */
  lemma BlankRowsIgnored(a: seq<seq<string>>, x: seq<string>, b: seq<seq<string>>)
    requires !NonBlank(x)
    ensures Records(a + [x] + b) == Records(a + b)
  {
    FilterConcat(NonBlank, a + [x], b);
    FilterConcat(NonBlank, a, [x]);
    FilterConcat(NonBlank, a, b);
    assert Filter(NonBlank, [x]) == [];
    assert Filter(NonBlank, a + [x] + b) == Filter(NonBlank, a + b);
  }

  /** A final row without a line terminator is still read: if the text ends
      outside quotes, adding a final LF does not change the records. */
  lemma FinalTerminatorOptional(s: string)
    requires !Scan(s, Start).inQuotes
    ensures Parse(s + ['\n']) == Parse(s)
  {
    AppendNewline(s, Start);
    var f := Scan(s, Start);
    if Scan(s + ['\n'], Start) != f {
      if |f.cur| == 0 && |f.row| == 0 {
        assert f.row + [f.cur] == [""];
        assert EndRow(f) == Scanner(f.rows + [[""]], [], "", f.inQuotes);
        assert Rows(s + ['\n']) == f.rows + [[""]];
        BlankRowsIgnored(f.rows, [""], []);
        assert f.rows + [[""]] + [] == f.rows + [[""]];
        assert f.rows + [] == f.rows;
      }
    }
  }

  /** Clean CSV (a non-blank header row `t[0]` and non-blank data rows, no
      blank lines), written with quoted or plain cells and any terminator,
      gives one record per data row, keyed by exactly the trimmed header names
      and holding, under each name, the trimmed cell of that column ("" when
      the row is short; when a name repeats, the last such column wins). */
  lemma ParseCleanTable(style: Style, e: Eol, t: seq<seq<string>>)
    requires |t| > 0
    requires forall i :: 0 <= i < |t| ==> NonBlank(t[i])
    requires style.Plain? ==> forall i, j :: 0 <= i < |t| && 0 <= j < |t[i]| ==> PlainCell(t[i][j])
    ensures var r := Parse(EncodeTable(style, e, t));
      && |r| == |t| - 1
      && forall i :: 0 <= i < |r| ==>
           && (forall k :: k in r[i] <==> k in TrimAll(t[0]))
           && forall j :: 0 <= j < |t[0]| && LastOccurrence(TrimAll(t[0]), |t[0]|, j) ==>
                r[i][Trim(t[0][j])] == CellAt(t[i + 1], j)
  {
    assert Writable(style, t);
    RowsOfEncodedTable(style, e, t);
    FilterAll(NonBlank, t);
    assert Parse(EncodeTable(style, e, t)) == HeaderMap(t);
  }

  /** Text without quotes, commas or line breaks is copied into the cell. */
  lemma {:induction false} PlainText(p: string, rest: string, st: Scanner)
    requires !st.inQuotes
    requires forall i :: 0 <= i < |p| ==> p[i] != '"' && p[i] != ',' && p[i] != '\n' && p[i] != '\r'
    ensures Scan(p + rest, st) == Scan(rest, st.(cur := st.cur + p))
    decreases |p|
  {
    if |p| == 0 {
      assert p + rest == rest;
      assert st.cur + p == st.cur;
      assert st.(cur := st.cur) == st;
    } else {
      var s := p + rest;
      var st' := st.(cur := st.cur + [p[0]]);
      assert s[1..] == p[1..] + rest;
      assert Step(s, st) == Move(1, st');
      PlainText(p[1..], rest, st');
      assert st'.cur + p[1..] == st.cur + p by { assert p == [p[0]] + p[1..]; }
    }
  }

  /** A quote in the middle of an unquoted cell still toggles quote mode: the
      quoted stretch, commas and line breaks included, is spliced into the
      cell, so `ab"c,d"e` is the single cell `abc,de`. */
  lemma MidCellQuote(p: string, v: string, q: string)
    requires |p| > 0
    requires forall i :: 0 <= i < |p| ==> p[i] != '"' && p[i] != ',' && p[i] != '\n' && p[i] != '\r'
    requires forall i :: 0 <= i < |q| ==> q[i] != '"' && q[i] != ',' && q[i] != '\n' && q[i] != '\r'
    ensures Rows(p + Quote(v) + q) == [[p + v + q]]
  {
    assert p + Quote(v) + q == p + (Quote(v) + q);
    PlainText(p, Quote(v) + q, Start);
    var st1 := Start.(cur := p);
    assert Start.cur + p == p;
    QuotedField(v, q, st1);
    assert q == q + [];
    var st2 := st1.(cur := p + v);
    PlainText(q, [], st2);
    var fin := Scanner([], [], p + v + q, false);
    assert Scan([], st2.(cur := st2.cur + q)) == fin;
    calc {
      Scan(p + Quote(v) + q, Start);
      Scan(Quote(v) + q, st1);
      Scan(q, st2);
      Scan(q + [], st2);
      fin;
    }
    assert |fin.cur| > 0;
    assert fin.row + [fin.cur] == [p + v + q];
    assert Flush(fin) == [] + [[p + v + q]];
  }
}

=== FILE: html.dfy ===
/** `escapeHtml` of assets/quiz.js: the five characters that are special in
    HTML text and attribute values are replaced by character references. */
module Html {

  /** The characters `escapeHtml` rewrites. */
  predicate IsSpecial(c: char)
  {
    c == '&' || c == '<' || c == '>' || c == '"' || c == '\''
  }

  /** The replacement of one character: its reference if it is special,
      otherwise the character itself. */
  function EscapeChar(c: char): string
  {
    match c
    case '&' => "&amp;"
    case '<' => "&lt;"
    case '>' => "&gt;"
    case '"' => "&quot;"
    case '\'' => "&#039;"
    case _ => [c]
  }

  /** `escapeHtml(s)`: every character replaced by `EscapeChar`. The result
      holds no `<`, `>`, `"` or `'`, and is never shorter than the input. */
  function EscapeHtml(s: string): (r: string)
    ensures |r| >= |s|
    ensures forall i :: 0 <= i < |r| ==> r[i] != '<' && r[i] != '>' && r[i] != '"' && r[i] != '\''
  {
    if |s| == 0 then ""
    else EscapeChar(s[0]) + EscapeHtml(s[1..])
  }

  /** Text with no special character is left as it is. */
  lemma {:induction false} EscapePlain(s: string)
    requires forall i :: 0 <= i < |s| ==> !IsSpecial(s[i])
    ensures EscapeHtml(s) == s
  {
    if |s| > 0 {
      EscapePlain(s[1..]);
      assert s == [s[0]] + s[1..];
    }
  }

  /** Escaping distributes over concatenation. */
  lemma {:induction false} EscapeConcat(a: string, b: string)
    ensures EscapeHtml(a + b) == EscapeHtml(a) + EscapeHtml(b)
    decreases |a|
  {
    if |a| > 0 {
      assert (a + b)[1..] == a[1..] + b;
      EscapeConcat(a[1..], b);
    } else {
      assert a + b == b;
    }
  }

  /** Decodes the five references `escapeHtml` produces (and only those);
      an `&` that starts none of them is kept as it is. */
  function Unescape(s: string): string
    decreases |s|
  {
    if |s| == 0 then ""
    else if |s| >= 5 && s[..5] == "&amp;" then "&" + Unescape(s[5..])
    else if |s| >= 4 && s[..4] == "&lt;" then "<" + Unescape(s[4..])
    else if |s| >= 4 && s[..4] == "&gt;" then ">" + Unescape(s[4..])
    else if |s| >= 6 && s[..6] == "&quot;" then "\"" + Unescape(s[6..])
    else if |s| >= 6 && s[..6] == "&#039;" then "'" + Unescape(s[6..])
    else [s[0]] + Unescape(s[1..])
  }

  /** Decoding a reference in front of any text gives its character back in
      front of the decoded text; so does decoding any other character. */
  lemma UnescapeAmp(rest: string)
    ensures Unescape("&amp;" + rest) == "&" + Unescape(rest)
  {
    var e := "&amp;" + rest;
    assert e[..5] == "&amp;" && e[5..] == rest;
  }

  lemma UnescapeLt(rest: string)
    ensures Unescape("&lt;" + rest) == "<" + Unescape(rest)
  {
    var e := "&lt;" + rest;
    assert e[..4] == "&lt;" && e[4..] == rest;
    assert |e| < 5 || e[..5] != "&amp;" by {
      if |e| >= 5 {
        assert e[1] == 'l';
      }
    }
  }

  lemma UnescapeGt(rest: string)
    ensures Unescape("&gt;" + rest) == ">" + Unescape(rest)
  {
    var e := "&gt;" + rest;
    assert e[..4] == "&gt;" && e[4..] == rest;
    assert |e| < 5 || e[..5] != "&amp;" by {
      if |e| >= 5 {
        assert e[1] == 'g';
      }
    }
    assert e[..4] != "&lt;" by {
      assert e[1] == 'g';
    }
  }

  lemma UnescapeQuot(rest: string)
    ensures Unescape("&quot;" + rest) == "\"" + Unescape(rest)
  {
    var e := "&quot;" + rest;
    assert e[..6] == "&quot;" && e[6..] == rest;
    assert e[1] == 'q';
    assert e[..5] != "&amp;" && e[..4] != "&lt;" && e[..4] != "&gt;" by {
      assert e[..5][1] == 'q' && e[..4][1] == 'q';
    }
  }

  lemma UnescapeApos(rest: string)
    ensures Unescape("&#039;" + rest) == "'" + Unescape(rest)
  {
    var e := "&#039;" + rest;
    assert e[..6] == "&#039;" && e[6..] == rest;
    assert e[1] == '#';
    assert e[..5] != "&amp;" && e[..4] != "&lt;" && e[..4] != "&gt;" && e[..6] != "&quot;" by {
      assert e[..5][1] == '#' && e[..4][1] == '#' && e[..6][1] == '#';
    }
  }

  lemma UnescapeOther(c: char, rest: string)
    requires c != '&'
    ensures Unescape([c] + rest) == [c] + Unescape(rest)
  {
    var e := [c] + rest;
    assert e[0] == c && e[1..] == rest;
    assert |e| < 4 || (e[..4][0] == c && e[..4] != "&lt;" && e[..4] != "&gt;");
    assert |e| < 5 || (e[..5][0] == c && e[..5] != "&amp;");
    assert |e| < 6 || (e[..6][0] == c && e[..6] != "&quot;" && e[..6] != "&#039;");
  }

  lemma UnescapeChar(c: char, rest: string)
    ensures Unescape(EscapeChar(c) + rest) == [c] + Unescape(rest)
  {
    match c
    case '&' => UnescapeAmp(rest);
    case '<' => UnescapeLt(rest);
    case '>' => UnescapeGt(rest);
    case '"' => UnescapeQuot(rest);
    case '\'' => UnescapeApos(rest);
    case _ => UnescapeOther(c, rest);
  }

  /** Escaping loses nothing: decoding recovers the original text. */
  lemma {:induction false} UnescapeEscape(s: string)
    ensures Unescape(EscapeHtml(s)) == s
    decreases |s|
  {
    if |s| > 0 {
      UnescapeChar(s[0], EscapeHtml(s[1..]));
      UnescapeEscape(s[1..]);
      assert s == [s[0]] + s[1..];
    }
  }

  /** Different texts escape differently. */
  lemma EscapeInjective(s: string, t: string)
    requires EscapeHtml(s) == EscapeHtml(t)
    ensures s == t
  {
    UnescapeEscape(s);
    UnescapeEscape(t);
  }
}

=== FILE: loader.dfy ===
/** `loadQuestions` of assets/app.js: the response of the fetch, parsed and
    reduced to the records that carry an id, a prompt and an answer. */
module Loader {
  import opened Wrappers
  import opened Seqs
  import opened Text
  import opened Csv

  /** What `fetch` hands back: whether the status is a success, the status
      code, and the body text. */
  datatype Response = Response(ok: bool, status: int, body: string)

  /** A failed load carries the HTTP status it failed with. */
  datatype LoadError = HttpError(status: int)

  /** A usable question: `id`, `prompt` and `answer` all non-blank. */
  predicate Complete(q: Record)
  {
    && Trim(Field(q, "id")) != ""
    && Trim(Field(q, "prompt")) != ""
    && Trim(Field(q, "answer")) != ""
  }

  /** The complete records, in file order. */
  function KeepComplete(all: seq<Record>): seq<Record>
  {
    Filter(Complete, all)
  }

  /** A non-success response is an error carrying its status; otherwise the
      parsed records, of which only complete ones are kept. */
  function LoadQuestions(res: Response): (r: Result<seq<Record>, LoadError>)
    ensures r.Failure? <==> !res.ok
    ensures r.Failure? ==> r.error == HttpError(res.status)
  {
    if !res.ok then Failure(HttpError(res.status))
    else Success(KeepComplete(Parse(res.body)))
  }

  /** The kept records are exactly the complete ones: an order-preserving
      subsequence holding each complete record as often as the input does,
      and no incomplete one (a blank prompt, say). */
  lemma KeepsExactlyComplete(all: seq<Record>)
    ensures var qs := KeepComplete(all);
      && IsSubsequence(qs, all)
      && (forall q :: multiset(qs)[q] == if Complete(q) then multiset(all)[q] else 0)
      && (forall q :: q in qs <==> q in all && Complete(q))
      && (forall i :: 0 <= i < |qs| ==> Complete(qs[i]))
  {
    FilterSpec(Complete, all);
    FilterMembers(Complete, all);
    FilterKeeps(Complete, all);
  }

  /** Loading keeps exactly the complete records of the parsed file. */
  lemma LoadKeepsExactlyComplete(res: Response)
    requires res.ok
    ensures forall q :: q in LoadQuestions(res).value <==> q in Parse(res.body) && Complete(q)
    ensures forall i :: 0 <= i < |LoadQuestions(res).value| ==> Complete(LoadQuestions(res).value[i])
  {
    KeepsExactlyComplete(Parse(res.body));
  }
}

=== FILE: quiz.dfy ===
/** The quiz page of assets/quiz.js as a state machine: the page's four
    variables (`allQuestions`, `questions`, `graded`, `history`) form a
    `Session`, and `init`, `gradeAll` and the retry-wrong button are
    transitions of it. Rendering, focus and scrolling are not modelled. */
module Quiz {
  import opened Wrappers
  import opened Seqs
  import opened Csv
  import opened Loader
  import opened Answers
  import opened Sampler

  /** One graded question: the question, the raw input and the verdict. */
  datatype Entry = Entry(q: Record, user: string, correct: bool)

  datatype Session = Session(
    allQuestions: seq<Record>,
    questions: seq<Record>,
    graded: bool,
    history: seq<Entry>)

  /** The page before `init` has run. */
  const Initial: Session := Session([], [], false, [])

  /** The stored `count` setting: any falsy value (missing, "", 0, null)
      reads as unset; anything else is "all" or a number. */
  datatype CountSetting = Unset | Setting(count: Count)

  /** `settings.count || "10"`. */
  function EffectiveCount(c: CountSetting): (n: Count)
    ensures c.Unset? ==> n == Num(10)
    ensures c.Setting? ==> n == c.count
  {
    match c
    case Unset => Num(10)
    case Setting(n) => n
  }

  /** The verdict `gradeAll` records for one question and input. */
  function Grade(q: Record, user: string): Entry
  {
    Entry(q, user, IsCorrect(q, user))
  }

  /** The history lines up with the questions: empty before grading, one
      entry per question, in question order, after it. */
  predicate Aligned(s: Session)
  {
    && (!s.graded ==> s.history == [])
    && (s.graded ==>
          && |s.history| == |s.questions|
          && forall i :: 0 <= i < |s.history| ==> s.history[i].q == s.questions[i])
  }

  /** Aligned, and every recorded verdict is the grading test on the
      recorded input. */
  predicate Consistent(s: Session)
  {
    && Aligned(s)
    && forall i :: 0 <= i < |s.history| ==> s.history[i] == Grade(s.history[i].q, s.history[i].user)
  }

  /** The graded entries for some questions and their inputs, in order. */
  function GradeEach(qs: seq<Record>, inputs: seq<string>): seq<Entry>
    requires |inputs| == |qs|
  {
    Zip(Grade, qs, inputs)
  }

  predicate IsRight(e: Entry)
  {
    e.correct
  }

  predicate IsWrong(e: Entry)
  {
    !e.correct
  }

  /** The number of correct entries (`history.filter((h) => h.correct).length`). */
  function Score(h: seq<Entry>): nat
  {
    |Filter(IsRight, h)|
  }

  /** The questions answered wrongly, in order
      (`history.filter((h) => !h.correct).map((h) => h.q)`). */
  function WrongQuestions(h: seq<Entry>): (r: seq<Record>)
    ensures |r| == |Filter(IsWrong, h)|
  {
    Map((e: Entry) => e.q, Filter(IsWrong, h))
  }

  /** Right and wrong answers together make up the whole history. */
  lemma ScorePlusWrong(h: seq<Entry>)
    ensures Score(h) + |WrongQuestions(h)| == |h|
    ensures Score(h) <= |h|
  {
    FilterComplement(IsRight, IsWrong, h);
  }

  /** A question is up for retry exactly when some entry of the history
      holds it with a wrong verdict. */
  lemma WrongQuestionsMembers(h: seq<Entry>, q: Record)
    ensures q in WrongQuestions(h) <==> exists i :: 0 <= i < |h| && h[i].q == q && !h[i].correct
  {
    var w := Filter(IsWrong, h);
    FilterMembers(IsWrong, h);
    if q in WrongQuestions(h) {
      var k :| 0 <= k < |w| && w[k].q == q;
      assert w[k] in h;
    }
    if exists i :: 0 <= i < |h| && h[i].q == q && !h[i].correct {
      var i :| 0 <= i < |h| && h[i].q == q && !h[i].correct;
      assert h[i] in w;
      var k :| 0 <= k < |w| && w[k] == h[i];
      assert WrongQuestions(h)[k] == q;
    }
  }

  /** `gradeAll` with the inputs the page's text fields hold, one per
      question. A graded session is left alone and no score is reported.
      Otherwise the session becomes graded with the graded entries of its
      questions as the history, and the reported score is the number of
      correct entries. */
  method GradeAll(s: Session, inputs: seq<string>) returns (t: Session, score: Option<nat>)
    requires |inputs| == |s.questions|
    ensures s.graded ==> t == s && score.None?
    ensures !s.graded ==> t == s.(graded := true, history := GradeEach(s.questions, inputs))
    ensures !s.graded ==> score == Some(Score(t.history))
  {
    if s.graded {
      return s, None;
    }
    var history: seq<Entry> := [];
    var n := 0;
    var i := 0;
    while i < |s.questions|
      invariant 0 <= i <= |s.questions|
      invariant history == GradeEach(s.questions[..i], inputs[..i])
      invariant n == Score(history)
    {
      var e := Grade(s.questions[i], inputs[i]);
      if e.correct {
        n := n + 1;
      }
      FilterConcat(IsRight, history, [e]);
      ZipSnoc(Grade, s.questions, inputs, i);
      history := history + [e];
      i := i + 1;
    }
    assert s.questions[..i] == s.questions && inputs[..i] == inputs;
    t := s.(graded := true, history := history);
    score := Some(n);
  }

  /** Grading a session yields a consistent one whose score counts the
      questions whose input passes the grading test. */
  lemma GradeAllConsistent(s: Session, inputs: seq<string>)
    requires |inputs| == |s.questions| && !s.graded
    ensures var t := s.(graded := true, history := GradeEach(s.questions, inputs));
      && Consistent(t)
      && Score(t.history) <= |t.questions|
      && forall i :: 0 <= i < |s.questions| ==>
           t.history[i].user == inputs[i] && t.history[i].correct == IsCorrect(s.questions[i], inputs[i])
  {
    ScorePlusWrong(GradeEach(s.questions, inputs));
  }

  /** `init(customQuestions)`. `loaded` is the outcome of `loadQuestions`;
      when it failed, `init` stops before assigning anything, so the session
      is unchanged. Otherwise the loaded questions become `allQuestions`, the
      quiz is the custom list when one is given (even an empty one), else a
      sample of the requested size drawn with `draw`, and grading is reset. */
  function Init(s: Session, loaded: Result<seq<Record>, LoadError>, setting: CountSetting,
                custom: Option<seq<Record>>, draw: seq<nat>): (t: Session)
    requires loaded.Success? && custom.None? ==> DrawFits(draw, |loaded.value|)
    ensures loaded.Failure? ==> t == s
    ensures loaded.Success? ==>
      && t.allQuestions == loaded.value
      && !t.graded && t.history == []
      && (custom.Some? ==> t.questions == custom.value)
  {
    match loaded
    case Failure(_) => s
    case Success(all) =>
      Session(all, if custom.Some? then custom.value else Sample(all, EffectiveCount(setting), draw), false, [])
  }

  /** Without a custom list, `init` draws as many questions as the setting
      asks for (ten when it is unset), clamped to what was loaded, each taken
      from the loaded questions and none more often than it was loaded. */
  lemma InitSamples(s: Session, all: seq<Record>, setting: CountSetting, draw: seq<nat>)
    requires DrawFits(draw, |all|)
    ensures var t := Init(s, Success(all), setting, None, draw);
      && |t.questions| == Wanted(EffectiveCount(setting), |all|)
      && multiset(t.questions) <= multiset(all)
      && (setting.Unset? ==> |t.questions| == if |all| < 10 then |all| else 10)
  {
    SampleFacts(all, EffectiveCount(setting), draw);
  }

  /** The retry-wrong button: nothing happens when no entry is wrong;
      otherwise `init` runs with the wrongly answered questions as the quiz. */
  function RetryWrong(s: Session, loaded: Result<seq<Record>, LoadError>, setting: CountSetting): (t: Session)
    ensures |WrongQuestions(s.history)| == 0 ==> t == s
    ensures |WrongQuestions(s.history)| > 0 && loaded.Success? ==>
      && !t.graded && t.history == []
      && t.questions == WrongQuestions(s.history)
    ensures |WrongQuestions(s.history)| > 0 && loaded.Failure? ==> t == s
  {
    var wrong := WrongQuestions(s.history);
    if |wrong| == 0 then s
    else Init(s, loaded, setting, Some(wrong), [])
  }

  /** `init` leaves a consistent session (grading is covered by `GradeAll`). */
  lemma InitConsistent(s: Session, loaded: Result<seq<Record>, LoadError>, setting: CountSetting,
                       custom: Option<seq<Record>>, draw: seq<nat>)
    requires loaded.Success? && custom.None? ==> DrawFits(draw, |loaded.value|)
    requires Consistent(s)
    ensures Consistent(Init(s, loaded, setting, custom, draw))
  {
  }

  /** After grading, retrying does nothing when every answer was right;
      otherwise the retry quiz holds exactly the questions whose entry is
      wrong, as many as the questions minus the score. */
  lemma RetryAfterGrading(s: Session, loaded: Result<seq<Record>, LoadError>, setting: CountSetting)
    requires Aligned(s) && s.graded && loaded.Success?
    ensures Score(s.history) <= |s.questions|
    ensures Score(s.history) == |s.questions| ==> RetryWrong(s, loaded, setting) == s
    ensures var t := RetryWrong(s, loaded, setting);
      Score(s.history) < |s.questions| ==>
        && |t.questions| == |s.questions| - Score(s.history)
        && IsSubsequence(t.questions, s.questions)
        && forall q :: q in t.questions <==>
             exists i :: 0 <= i < |s.questions| && s.questions[i] == q && !s.history[i].correct
  {
    ScorePlusWrong(s.history);
    var t := RetryWrong(s, loaded, setting);
    if Score(s.history) < |s.questions| {
      var get := (e: Entry) => e.q;
      FilterSpec(IsWrong, s.history);
      MapSubsequence(get, Filter(IsWrong, s.history), s.history);
      assert Map(get, s.history) == s.questions;
      forall q
        ensures q in t.questions <==>
          exists i :: 0 <= i < |s.questions| && s.questions[i] == q && !s.history[i].correct
      {
        WrongQuestionsMembers(s.history, q);
      }
    }
  }

  /** Retrying before grading does nothing: the history is still empty. */
  lemma RetryBeforeGrading(s: Session, loaded: Result<seq<Record>, LoadError>, setting: CountSetting)
    requires Aligned(s) && !s.graded
    ensures RetryWrong(s, loaded, setting) == s
  {
  }

  /** The page's first `init()`: starting from the empty page, a failed load
      leaves no questions at all, and a successful one yields a consistent,
      ungraded session whose quiz is a sample of the loaded questions. The
      retry button does nothing before that. */
  lemma FirstInit(loaded: Result<seq<Record>, LoadError>, setting: CountSetting, draw: seq<nat>)
    requires loaded.Success? ==> DrawFits(draw, |loaded.value|)
    ensures Consistent(Initial)
    ensures RetryWrong(Initial, loaded, setting) == Initial
    ensures var t := Init(Initial, loaded, setting, None, draw);
      && Consistent(t)
      && (loaded.Failure? ==> t.questions == [] && t.allQuestions == [] && !t.graded)
      && (loaded.Success? ==>
            && t.questions == Sample(loaded.value, EffectiveCount(setting), draw)
            && |t.questions| == Wanted(EffectiveCount(setting), |loaded.value|))
  {
    InitConsistent(Initial, loaded, setting, None, draw);
    if loaded.Success? {
      InitSamples(Initial, loaded.value, setting, draw);
    }
  }

  /** A sampled quiz draws only on the loaded questions, so when those are
      complete (as `LoadQuestions` guarantees) every quiz question is. */
  lemma InitQuestionsComplete(s: Session, all: seq<Record>, setting: CountSetting, draw: seq<nat>)
    requires DrawFits(draw, |all|)
    requires forall i :: 0 <= i < |all| ==> Complete(all[i])
    ensures var t := Init(s, Success(all), setting, None, draw);
      forall i :: 0 <= i < |t.questions| ==> Complete(t.questions[i])
  {
    InitSamples(s, all, setting, draw);
    var t := Init(s, Success(all), setting, None, draw);
    forall i | 0 <= i < |t.questions|
      ensures Complete(t.questions[i])
    {
      var q := t.questions[i];
      assert q in multiset(t.questions);
      assert q in multiset(all);
      var k :| 0 <= k < |all| && all[k] == q;
    }
  }
}

=== FILE: renumber.dfy ===
/** The id-renumbering of scripts/renumber_tcsv.py: the text is cut into
    lines as Python's `str.splitlines` does, the header line is kept, and in
    every later line the leftmost id of the form `T-` + three digits + word
    boundary is replaced by `T-` and a running counter padded to three digits;
    the lines are written back joined by `\n` with a final `\n`. */
module Renumber {
  import opened Wrappers
  import opened Seqs

  /** `\d`, restricted to ASCII. */
  predicate IsDigit(c: char)
  {
    '0' <= c <= '9'
  }

  /** `\w`, restricted to ASCII: letters, digits and the underscore. */
  predicate IsWordChar(c: char)
  {
    IsDigit(c) || ('a' <= c <= 'z') || ('A' <= c <= 'Z') || c == '_'
  }

  /** The length of a match of `T-\d{3}\b`. */
  const MatchLen: nat := 5

  /** `T-\d{3}\b` matches at position `p` of `s`: `T`, `-`, three digits, and
      then the end of the line or a character that is not a word character. */
  predicate MatchAt(s: string, p: nat)
  {
    && p + MatchLen <= |s|
    && s[p] == 'T' && s[p + 1] == '-'
    && IsDigit(s[p + 2]) && IsDigit(s[p + 3]) && IsDigit(s[p + 4])
    && (p + MatchLen == |s| || !IsWordChar(s[p + MatchLen]))
  }

  /** `pattern.search` from position `from`: the leftmost match at or after
      `from`, if any. */
  function FindMatch(s: string, from: nat): (r: Option<nat>)
    ensures r.Some? ==> from <= r.value && MatchAt(s, r.value)
    ensures r.Some? ==> forall q :: from <= q < r.value ==> !MatchAt(s, q)
    ensures r.None? ==> forall q :: from <= q ==> !MatchAt(s, q)
    decreases |s| - from
  {
    if from + MatchLen > |s| then None
    else if MatchAt(s, from) then Some(from)
    else FindMatch(s, from + 1)
  }

  /** The decimal digits of `n`, without leading zeros. */
  function Digits(n: nat): (r: string)
    ensures 1 <= |r|
    ensures forall i :: 0 <= i < |r| ==> IsDigit(r[i])
    ensures n < 10 ==> |r| == 1
    ensures n < 100 ==> |r| <= 2
    ensures n < 1000 ==> |r| <= 3
    ensures n >= 100 ==> |r| >= 3
    ensures n > 0 ==> r[0] != '0'
  {
    if n < 10 then [('0' as int + n) as char]
    else Digits(n / 10) + [('0' as int + n % 10) as char]
  }

  /** `f"{n:03d}"`: the decimal digits of `n`, left-padded with zeros to
      three characters (longer numbers are not cut). */
  function Pad3(n: nat): (r: string)
    ensures forall i :: 0 <= i < |r| ==> IsDigit(r[i])
    ensures n < 1000 ==> |r| == 3
    ensures n >= 1000 ==> r == Digits(n) && r[0] != '0'
  {
    var d := Digits(n);
    if |d| >= 3 then d else seq(3 - |d|, _ => '0') + d
  }

  /** The number a string of decimal digits denotes. */
  function Value(s: string): nat
    requires forall i :: 0 <= i < |s| ==> IsDigit(s[i])
    decreases |s|
  {
    if |s| == 0 then 0
    else
      var d := s[|s| - 1] as int - '0' as int;
      assert IsDigit(s[|s| - 1]);
      Value(s[..|s| - 1]) * 10 + d
  }

  lemma {:induction false} DigitsValue(n: nat)
    ensures Value(Digits(n)) == n
  {
    if n >= 10 {
      DigitsValue(n / 10);
      var d := Digits(n);
      assert d[..|d| - 1] == Digits(n / 10);
    }
  }

  lemma {:induction false} LeadingZeros(k: nat, s: string)
    requires forall i :: 0 <= i < |s| ==> IsDigit(s[i])
    ensures Value(seq(k, _ => '0') + s) == Value(s)
    decreases |s|
  {
    var z := seq(k, _ => '0') + s;
    if |s| == 0 {
      ZerosValue(k);
      assert z == seq(k, _ => '0');
    } else {
      assert z[..|z| - 1] == seq(k, _ => '0') + s[..|s| - 1];
      LeadingZeros(k, s[..|s| - 1]);
    }
  }

  lemma {:induction false} ZerosValue(k: nat)
    ensures Value(seq(k, _ => '0')) == 0
  {
    if k > 0 {
      assert seq(k, _ => '0')[..k - 1] == seq(k - 1, _ => '0');
      ZerosValue(k - 1);
    }
  }

  /** The padded counter denotes the counter: padding adds only zeros. */
  lemma Pad3Value(n: nat)
    ensures Value(Pad3(n)) == n
  {
    DigitsValue(n);
    var d := Digits(n);
    if |d| < 3 {
      LeadingZeros(3 - |d|, d);
    }
  }

  /** The replacement id for counter value `n`. */
  function NewId(n: nat): string
  {
    "T-" + Pad3(n)
  }

  /** `pattern.sub(new_id, line, count=1)` once the match is known to start
      at `p`: the five matched characters are replaced by the new id. */
  function ReplaceAt(s: string, p: nat, n: nat): (r: string)
    requires MatchAt(s, p)
    ensures |r| == |s| - MatchLen + |NewId(n)|
    ensures r[..p] == s[..p] && r[p..p + |NewId(n)|] == NewId(n) && r[p + |NewId(n)|..] == s[p + MatchLen..]
  {
    s[..p] + NewId(n) + s[p + MatchLen..]
  }

  /** What replacing the leftmost match does to a line: the text before and
      after the five matched characters is kept, `T-` and digits denoting the
      counter take their place, and for a counter below 1000 the result is
      again a line whose leftmost match is at the same place, now holding the
      new id. */
  lemma ReplaceSpec(s: string, p: nat, n: nat)
    requires FindMatch(s, 0) == Some(p)
    ensures var r := ReplaceAt(s, p, n);
      var w := |NewId(n)|;
      && p + w <= |r|
      && r[..p] == s[..p] && r[p + w..] == s[p + MatchLen..]
      && r[p] == 'T' && r[p + 1] == '-'
      && (forall i :: p + 2 <= i < p + w ==> IsDigit(r[i]))
      && Value(r[p + 2..p + w]) == n
      && (n < 1000 ==>
            && |r| == |s| && w == MatchLen
            && FindMatch(r, 0) == Some(p)
            && forall i :: 0 <= i < |s| && (i < p || p + MatchLen <= i) ==> r[i] == s[i])
  {
    ReplaceWritesId(s, p, n);
    if n < 1000 {
      ReplaceKeepsShape(s, p, n);
      SameShapeFind(ReplaceAt(s, p, n), s, 0);
      ReplaceKeepsRest(s, p, n);
    }
  }

  /** The new id is `T-` and digits that denote the counter. */
  lemma ReplaceWritesId(s: string, p: nat, n: nat)
    requires MatchAt(s, p)
    ensures var r := ReplaceAt(s, p, n);
      var w := |NewId(n)|;
      && p + w <= |r|
      && r[p] == 'T' && r[p + 1] == '-'
      && (forall i :: p + 2 <= i < p + w ==> IsDigit(r[i]))
      && Value(r[p + 2..p + w]) == n
  {
    var r := ReplaceAt(s, p, n);
    var w := |NewId(n)|;
    assert r[p..p + w] == "T-" + Pad3(n);
    assert r[p] == r[p..p + w][0] && r[p + 1] == r[p..p + w][1];
    assert r[p + 2..p + w] == Pad3(n);
    Pad3Value(n);
  }

  /** A three-digit id leaves every character outside the match in place. */
  lemma ReplaceKeepsRest(s: string, p: nat, n: nat)
    requires MatchAt(s, p) && n < 1000
    ensures var r := ReplaceAt(s, p, n);
      && |r| == |s|
      && forall i :: 0 <= i < |s| && (i < p || p + MatchLen <= i) ==> r[i] == s[i]
  {
    var r := ReplaceAt(s, p, n);
    forall i | 0 <= i < |s| && (i < p || p + MatchLen <= i)
      ensures r[i] == s[i]
    {
      if i < p {
        assert r[i] == r[..p][i];
      } else {
        assert r[i] == r[p + MatchLen..][i - p - MatchLen];
      }
    }
  }

  /** One step of the loop on a data line, given the current counter:
      the new line and whether the counter advances. */
  function RenumberLine(line: string, count: nat): (string, bool)
  {
    match FindMatch(line, 0)
    case None => (line, false)
    case Some(p) => (ReplaceAt(line, p, count), true)
  }

  /** The loop over the data lines from counter `count`: the new lines and
      the counter afterwards. */
  function RenumberData(lines: seq<string>, count: nat): (r: (seq<string>, nat))
    ensures r.1 >= count
    decreases |lines|
  {
    if |lines| == 0 then ([], count)
    else
      var (line, hit) := RenumberLine(lines[0], count);
      var (rest, c) := RenumberData(lines[1..], if hit then count + 1 else count);
      ([line] + rest, c)
  }

  /** A line holds some match of the pattern. */
  predicate HasMatch(line: string)
  {
    FindMatch(line, 0).Some?
  }

  /** How many lines hold a match. */
  function MatchCount(lines: seq<string>): nat
  {
    |Filter(HasMatch, lines)|
  }

  /** Lines 24-43 once the text is split: an empty list is rejected with the
      script's message; otherwise the header and the renumbered data lines,
      and the number of ids written (`count - 1`). */
  function Renumber(lines: seq<string>): Result<(seq<string>, nat), string>
  {
    if |lines| == 0 then Failure("empty file")
    else
      var (data, count) := RenumberData(lines[1..], 1);
      Success(([lines[0]] + data, count - 1))
  }

  /** A line in front adds one to the count exactly when it holds a match. */
  lemma MatchCountCons(l: string, rest: seq<string>)
    ensures MatchCount([l] + rest) == (if HasMatch(l) then 1 else 0) + MatchCount(rest)
  {
    FilterConcat(HasMatch, [l], rest);
    assert Filter(HasMatch, [l]) == if HasMatch(l) then [l] else [];
  }

  /** The loop writes one line per data line and advances the counter once
      per data line that holds a match. */
  lemma {:induction false} RenumberDataCount(lines: seq<string>, count: nat)
    ensures |RenumberData(lines, count).0| == |lines|
    ensures RenumberData(lines, count).1 == count + MatchCount(lines)
    decreases |lines|
  {
    if |lines| > 0 {
      var hit := RenumberLine(lines[0], count).1;
      RenumberDataCount(lines[1..], if hit then count + 1 else count);
      MatchCountCons(lines[0], lines[1..]);
      assert lines == [lines[0]] + lines[1..];
    }
  }

  /** The line the loop writes for data line `i`: a copy when it holds no
      match, else a copy with its leftmost match replaced by the id numbered
      by the matching lines before it. */
  lemma {:induction false} RenumberDataLine(lines: seq<string>, count: nat, i: nat)
    requires i < |lines|
    ensures |RenumberData(lines, count).0| == |lines|
    ensures FindMatch(lines[i], 0).None? ==> RenumberData(lines, count).0[i] == lines[i]
    ensures FindMatch(lines[i], 0).Some? ==>
      RenumberData(lines, count).0[i] == ReplaceAt(lines[i], FindMatch(lines[i], 0).value, count + MatchCount(lines[..i]))
  {
    DataLineAt(lines, count, i);
  }

  /** The line the loop writes for data line `i` is what one step makes of
      it with the counter advanced past the matching lines before it. */
  lemma {:induction false} DataLineAt(lines: seq<string>, count: nat, i: nat)
    requires i < |lines|
    ensures |RenumberData(lines, count).0| == |lines|
    ensures RenumberData(lines, count).0[i] == RenumberLine(lines[i], count + MatchCount(lines[..i])).0
    decreases i
  {
    if i == 0 {
      DataLineFirst(lines, count);
    } else {
      var next := if RenumberLine(lines[0], count).1 then count + 1 else count;
      DataLineAt(lines[1..], next, i - 1);
      DataLineNext(lines, count, i);
    }
  }

  lemma DataLineFirst(lines: seq<string>, count: nat)
    requires 0 < |lines|
    ensures |RenumberData(lines, count).0| == |lines|
    ensures RenumberData(lines, count).0[0] == RenumberLine(lines[0], count + MatchCount(lines[..0])).0
  {
    RenumberDataCount(lines, count);
    DataStep(lines, 0, count);
    assert lines[0..] == lines;
    assert lines[..0] == [];
  }

  /** From the line written for data line `i - 1` of the tail to the line
      written for data line `i`. */
  lemma DataLineNext(lines: seq<string>, count: nat, i: nat)
    requires 0 < i < |lines|
    requires var next := if RenumberLine(lines[0], count).1 then count + 1 else count;
      && |RenumberData(lines[1..], next).0| == |lines| - 1
      && RenumberData(lines[1..], next).0[i - 1] == RenumberLine(lines[1..][i - 1], next + MatchCount(lines[1..][..i - 1])).0
    ensures |RenumberData(lines, count).0| == |lines|
    ensures RenumberData(lines, count).0[i] == RenumberLine(lines[i], count + MatchCount(lines[..i])).0
  {
    var hit := RenumberLine(lines[0], count).1;
    DataIndex(lines, count, i);
    PrefixCount(lines, i, count, hit);
    assert lines[1..][i - 1] == lines[i];
  }

  /** Line `i` of the loop's output is line `i - 1` of its output on the
      remaining lines. */
  lemma DataIndex(lines: seq<string>, count: nat, i: nat)
    requires 0 < i < |lines|
    requires var next := if RenumberLine(lines[0], count).1 then count + 1 else count;
      |RenumberData(lines[1..], next).0| == |lines| - 1
    ensures var next := if RenumberLine(lines[0], count).1 then count + 1 else count;
      && |RenumberData(lines, count).0| == |lines|
      && RenumberData(lines, count).0[i] == RenumberData(lines[1..], next).0[i - 1]
  {
    var (line, hit) := RenumberLine(lines[0], count);
    var after := RenumberData(lines[1..], if hit then count + 1 else count);
    assert RenumberData(lines, count) == ([line] + after.0, after.1);
  }

  /** The counter after the first line plus the matches among the next
      `i - 1` lines is the counter plus the matches among the first `i`. */
  lemma PrefixCount(lines: seq<string>, i: nat, count: nat, hit: bool)
    requires 0 < i <= |lines|
    requires hit == RenumberLine(lines[0], count).1
    ensures (if hit then count + 1 else count) + MatchCount(lines[1..][..i - 1]) == count + MatchCount(lines[..i])
  {
    assert lines[..i] == [lines[0]] + lines[1..][..i - 1];
    MatchCountCons(lines[0], lines[1..][..i - 1]);
  }

  /** What the loop does to data lines: as many lines out as in, each line
      as `RenumberDataLine` says, and the counter advanced by the number of
      matching lines. */
  lemma RenumberDataSpec(lines: seq<string>, count: nat)
    ensures var (out, c) := RenumberData(lines, count);
      && |out| == |lines|
      && c == count + MatchCount(lines)
      && forall i :: 0 <= i < |lines| ==>
           && (FindMatch(lines[i], 0).None? ==> out[i] == lines[i])
           && (FindMatch(lines[i], 0).Some? ==>
                 out[i] == ReplaceAt(lines[i], FindMatch(lines[i], 0).value, count + MatchCount(lines[..i])))
  {
    RenumberDataCount(lines, count);
    forall i | 0 <= i < |lines|
      ensures FindMatch(lines[i], 0).None? ==> RenumberData(lines, count).0[i] == lines[i]
      ensures FindMatch(lines[i], 0).Some? ==>
        RenumberData(lines, count).0[i] == ReplaceAt(lines[i], FindMatch(lines[i], 0).value, count + MatchCount(lines[..i]))
    {
      RenumberDataLine(lines, count, i);
    }
  }

  /** The script's result: the header is kept, every line is accounted
      for, and the reported count is the number of data lines holding an id. */
  lemma RenumberSpec(lines: seq<string>)
    ensures lines == [] <==> Renumber(lines) == Failure("empty file")
    ensures lines != [] ==>
      && Renumber(lines).Success?
      && |Renumber(lines).value.0| == |lines|
      && Renumber(lines).value.0[0] == lines[0]
      && Renumber(lines).value.1 == MatchCount(lines[1..])
  {
    if lines != [] {
      RenumberDataSpec(lines[1..], 1);
    }
  }

  /** The loop as the script writes it, over the line list. */
  method RenumberLines(lines: seq<string>) returns (r: Result<(seq<string>, nat), string>)
    ensures r == Renumber(lines)
  {
    if |lines| == 0 {
      return Failure("empty file");
    }
    var newLines := [lines[0]];
    var count := 1;
    var i := 1;
    while i < |lines|
      invariant 1 <= i <= |lines|
      invariant |newLines| >= 1 && newLines[0] == lines[0]
      invariant LoopInvariant(lines, i, newLines, count)
    {
      var line := lines[i];
      LoopStep(lines, i, newLines, count);
      var m := FindMatch(line, 0);
      if m.Some? {
        newLines := newLines + [ReplaceAt(line, m.value, count)];
        count := count + 1;
      } else {
        newLines := newLines + [line];
      }
      i := i + 1;
    }
    LoopDone(lines, newLines, count);
    r := Success((newLines, count - 1));
  }

  /** After the lines before `i`: the lines written so far followed by what
      the loop function makes of the remaining lines are the loop function's
      lines, and the counters agree. */
  ghost predicate LoopInvariant(lines: seq<string>, i: nat, newLines: seq<string>, count: nat)
    requires 1 <= i <= |lines| && |newLines| >= 1
  {
    var all := RenumberData(lines[1..], 1);
    var rest := RenumberData(lines[i..], count);
    all.0 == newLines[1..] + rest.0 && all.1 == rest.1
  }

  /** One iteration keeps `LoopInvariant`. */
  lemma LoopStep(lines: seq<string>, i: nat, newLines: seq<string>, count: nat)
    requires 1 <= i < |lines| && |newLines| >= 1
    requires LoopInvariant(lines, i, newLines, count)
    ensures var (line, hit) := RenumberLine(lines[i], count);
      LoopInvariant(lines, i + 1, newLines + [line], if hit then count + 1 else count)
  {
    DataStep(lines, i, count);
    var (line, hit) := RenumberLine(lines[i], count);
    assert (newLines + [line])[1..] == newLines[1..] + [line];
  }

  /** When the loop stops, it has produced the script's result. */
  lemma LoopDone(lines: seq<string>, newLines: seq<string>, count: nat)
    requires |lines| >= 1 && |newLines| >= 1 && newLines[0] == lines[0]
    requires LoopInvariant(lines, |lines|, newLines, count)
    ensures count >= 1
    ensures Renumber(lines) == Success((newLines, count - 1))
  {
    var d := RenumberData(lines[1..], 1);
    assert lines[|lines|..] == [];
    assert d.0 == newLines[1..] && d.1 == count;
    assert newLines == [lines[0]] + d.0;
  }

  /** Unfolding the loop function once at position `i`. */
  lemma DataStep(lines: seq<string>, i: nat, count: nat)
    requires i < |lines|
    ensures var (line, hit) := RenumberLine(lines[i], count);
      var after := RenumberData(lines[i + 1..], if hit then count + 1 else count);
      RenumberData(lines[i..], count) == ([line] + after.0, after.1)
  {
    assert lines[i..][0] == lines[i] && lines[i..][1..] == lines[i + 1..];
  }

  /** The characters Python's `str.splitlines` breaks at. */
  predicate IsLineBreak(c: char)
  {
    || c == '\n' || c == '\r' || c == '\U{000B}' || c == '\U{000C}'
    || c == '\U{001C}' || c == '\U{001D}' || c == '\U{001E}'
    || c == '\U{0085}' || c == '\U{2028}' || c == '\U{2029}'
  }

  /** The position of the first line break at or after `from`, or `|s|`. */
  function NextBreak(s: string, from: nat): (k: nat)
    requires from <= |s|
    ensures from <= k <= |s|
    ensures k < |s| ==> IsLineBreak(s[k])
    ensures forall j :: from <= j < k ==> !IsLineBreak(s[j])
    decreases |s| - from
  {
    if from == |s| || IsLineBreak(s[from]) then from else NextBreak(s, from + 1)
  }

  /** `str.splitlines()`: the lines without their terminators, where
      `\r\n` is one terminator and a terminator at the very end does not
      start another line. */
  function SplitLines(s: string): seq<string>
    decreases |s|
  {
    if |s| == 0 then []
    else
      var k := NextBreak(s, 0);
      if k == |s| then [s]
      else
        var skip := if s[k] == '\r' && k + 1 < |s| && s[k + 1] == '\n' then 2 else 1;
        [s[..k]] + SplitLines(s[k + skip..])
  }

  /** What the script writes: the lines joined with `\n`, plus a final `\n`. */
  function Written(lines: seq<string>): string
    requires |lines| > 0
  {
    Join(lines, '\n') + "\n"
  }

  /** Each line followed by its own `\n`. */
  function Terminated(lines: seq<string>): string
    decreases |lines|
  {
    if |lines| == 0 then "" else lines[0] + "\n" + Terminated(lines[1..])
  }

  lemma {:induction false} WrittenIsTerminated(lines: seq<string>)
    requires |lines| > 0
    ensures Written(lines) == Terminated(lines)
    decreases |lines|
  {
    if |lines| > 1 {
      WrittenIsTerminated(lines[1..]);
      assert Join(lines, '\n') + "\n" == lines[0] + "\n" + (Join(lines[1..], '\n') + "\n");
    } else {
      assert Terminated(lines[1..]) == "";
    }
  }

  /** A line with no line-break character in it. */
  predicate NoBreak(line: string)
  {
    forall j :: 0 <= j < |line| ==> !IsLineBreak(line[j])
  }

  lemma {:induction false} SplitTerminated(lines: seq<string>)
    requires forall i :: 0 <= i < |lines| ==> NoBreak(lines[i])
    ensures SplitLines(Terminated(lines)) == lines
    decreases |lines|
  {
    if |lines| > 0 {
      var s := Terminated(lines);
      var l := lines[0];
      assert s == l + "\n" + Terminated(lines[1..]);
      assert s[|l|] == '\n';
      BreakAt(s, l);
      assert s[..|l|] == l;
      assert s[|l| + 1..] == Terminated(lines[1..]);
      SplitTerminated(lines[1..]);
      assert lines == [l] + lines[1..];
    }
  }

  lemma BreakAt(s: string, l: string)
    requires |l| < |s| && s[..|l|] == l && s[|l|] == '\n' && NoBreak(l)
    ensures NextBreak(s, 0) == |l|
  {
  }

  /** Reading back what the script writes gives its lines again, whenever no
      line holds a line-break character (true of every line `splitlines`
      produces). */
  lemma WrittenRoundTrip(lines: seq<string>)
    requires |lines| > 0
    requires forall i :: 0 <= i < |lines| ==> NoBreak(lines[i])
    ensures SplitLines(Written(lines)) == lines
  {
    WrittenIsTerminated(lines);
    SplitTerminated(lines);
  }

  /** `splitlines` never leaves a line-break character inside a line. */
  lemma {:induction false} SplitLinesNoBreak(s: string)
    ensures forall i :: 0 <= i < |SplitLines(s)| ==> NoBreak(SplitLines(s)[i])
    decreases |s|
  {
    if |s| > 0 {
      var k := NextBreak(s, 0);
      if k < |s| {
        var skip := if s[k] == '\r' && k + 1 < |s| && s[k + 1] == '\n' then 2 else 1;
        SplitLinesNoBreak(s[k + skip..]);
      }
    }
  }

  /** The character class the pattern can see: everything but `T`, `-`,
      digits and the other word characters looks the same to it. */
  function Shape(c: char): int
  {
    if c == 'T' then 0
    else if c == '-' then 1
    else if IsDigit(c) then 2
    else if IsWordChar(c) then 3
    else 4
  }

  predicate SameShape(a: string, b: string)
  {
    |a| == |b| && forall i :: 0 <= i < |a| ==> Shape(a[i]) == Shape(b[i])
  }

  /** Whether the pattern matches depends only on the shape. */
  lemma SameShapeFind(a: string, b: string, from: nat)
    requires SameShape(a, b)
    ensures FindMatch(a, from) == FindMatch(b, from)
    decreases |a| - from
  {
    if from + MatchLen <= |a| {
      assert MatchAt(a, from) == MatchAt(b, from);
      SameShapeFind(a, b, from + 1);
    }
  }

  /** A three-digit id has the shape of the id it replaces. */
  lemma ReplaceKeepsShape(s: string, p: nat, n: nat)
    requires MatchAt(s, p) && n < 1000
    ensures SameShape(ReplaceAt(s, p, n), s)
  {
    var r := ReplaceAt(s, p, n);
    forall i | 0 <= i < |s|
      ensures Shape(r[i]) == Shape(s[i])
    {
      if i < p {
        assert r[i] == r[..p][i];
      } else if i < p + MatchLen {
        assert r[i] == NewId(n)[i - p];
      } else {
        assert r[i] == r[p + MatchLen..][i - p - MatchLen];
      }
    }
  }

  /** Renumbering a line that was already renumbered with the same counter
      changes nothing. */
  lemma RenumberLineAgain(line: string, count: nat)
    requires count < 1000
    ensures var (l, hit) := RenumberLine(line, count);
      RenumberLine(l, count) == (l, hit)
  {
    var m := FindMatch(line, 0);
    if m.Some? {
      var r := ReplaceAt(line, m.value, count);
      ReplaceKeepsShape(line, m.value, count);
      SameShapeFind(r, line, 0);
      assert ReplaceAt(r, m.value, count) == r;
    }
  }

  lemma {:induction false} RenumberDataAgain(lines: seq<string>, count: nat)
    requires count + MatchCount(lines) <= 1000
    ensures var (out, c) := RenumberData(lines, count);
      RenumberData(out, count) == (out, c)
    decreases |lines|
  {
    if |lines| > 0 {
      var (line, hit) := RenumberLine(lines[0], count);
      var next := if hit then count + 1 else count;
      assert lines == [lines[0]] + lines[1..];
      FilterConcat(HasMatch, [lines[0]], lines[1..]);
      if hit {
        assert count < 1000;
        RenumberLineAgain(lines[0], count);
      } else {
        assert FindMatch(line, 0).None?;
      }
      RenumberDataAgain(lines[1..], next);
      var (out, c) := RenumberData(lines, count);
      var (rest, c') := RenumberData(lines[1..], next);
      assert out == [line] + rest;
      assert out[1..] == rest;
    }
  }

  /** An id written in place of a match brings no line break into the line. */
  lemma ReplaceKeepsNoBreak(s: string, p: nat, n: nat)
    requires MatchAt(s, p) && NoBreak(s)
    ensures NoBreak(ReplaceAt(s, p, n))
  {
    var r := ReplaceAt(s, p, n);
    var w := |NewId(n)|;
    forall i | 0 <= i < |r|
      ensures !IsLineBreak(r[i])
    {
      if i < p {
        assert r[i] == r[..p][i];
      } else if i < p + w {
        assert r[i] == NewId(n)[i - p];
      } else {
        assert r[i] == r[p + w..][i - p - w];
      }
    }
  }

  /** The lines the script writes hold no line break when its input lines
      hold none. */
  lemma RenumberNoBreak(lines: seq<string>)
    requires lines != []
    requires forall i :: 0 <= i < |lines| ==> NoBreak(lines[i])
    ensures var out := Renumber(lines).value.0;
      |out| > 0 && forall i :: 0 <= i < |out| ==> NoBreak(out[i])
  {
    RenumberSpec(lines);
    var data := lines[1..];
    RenumberDataSpec(data, 1);
    var out := Renumber(lines).value.0;
    var d := RenumberData(data, 1).0;
    assert out == [lines[0]] + d;
    forall i | 0 <= i < |out|
      ensures NoBreak(out[i])
    {
      if i > 0 {
        var m := FindMatch(data[i - 1], 0);
        if m.Some? {
          ReplaceKeepsNoBreak(data[i - 1], m.value, 1 + MatchCount(data[..i - 1]));
        }
      }
    }
  }

  /** Running the script a second time on the text it wrote writes the same
      text again, as long as it numbered at most 999 ids. */
  lemma RenumberTextIdempotent(text: string)
    requires SplitLines(text) != []
    requires MatchCount(SplitLines(text)[1..]) <= 999
    ensures var once := Renumber(SplitLines(text)).value.0;
      && SplitLines(Written(once)) != []
      && Written(Renumber(SplitLines(Written(once))).value.0) == Written(once)
  {
    var lines := SplitLines(text);
    var once := Renumber(lines).value.0;
    SplitLinesNoBreak(text);
    RenumberNoBreak(lines);
    WrittenRoundTrip(once);
    RenumberIdempotent(lines);
  }

  /** Running the script a second time on its own output writes the same
      lines again, as long as it numbered at most 999 ids. */
  lemma RenumberIdempotent(lines: seq<string>)
    requires lines != []
    requires MatchCount(lines[1..]) <= 999
    ensures Renumber(Renumber(lines).value.0) == Renumber(lines)
  {
    RenumberDataAgain(lines[1..], 1);
    var out := Renumber(lines).value.0;
    var (data, c) := RenumberData(lines[1..], 1);
    assert out == [lines[0]] + data;
    assert out[1..] == data;
  }
}

=== FILE: sampler.dfy ===
/** `sampleWithoutReplacement` of assets/app.js: a Fisher-Yates shuffle of a
    copy of the questions followed by a prefix of the requested length.
    `Math.random` is replaced by a sequence of draws: `draw[i]` is the index
    `j` chosen in the step for position `i`, so the model is deterministic in
    the draws and says nothing about their distribution. */
module Sampler {

  /** The requested number of questions: the string "all", or a number. */
  datatype Count = All | Num(n: int)

  /** Draws usable for an array of length `len`: one per position, the draw
      for position `i` lying in `0 .. i` (as `Math.floor(Math.random() * (i + 1))`
      does). The draw for position 0 is never read. */
  predicate DrawFits(draw: seq<nat>, len: nat)
  {
    |draw| == len && forall i :: 0 <= i < |draw| ==> draw[i] <= i
  }

  /** `a` with the elements at `i` and `j` exchanged. */
  function Swap<T>(a: seq<T>, i: nat, j: nat): (r: seq<T>)
    requires i < |a| && j < |a|
    ensures |r| == |a|
    ensures r[i] == a[j] && r[j] == a[i]
    ensures forall k :: 0 <= k < |a| && k != i && k != j ==> r[k] == a[k]
    ensures multiset(r) == multiset(a)
  {
    a[i := a[j]][j := a[i]]
  }

  /** The shuffle steps for positions `i - 1` down to 1, in that order: each
      step swaps position `p` with the drawn position `draw[p]`. The result is
      a rearrangement of `a`. */
  function ShuffleDown<T>(a: seq<T>, draw: seq<nat>, i: nat): (r: seq<T>)
    requires DrawFits(draw, |a|) && i <= |a|
    ensures |r| == |a|
    ensures multiset(r) == multiset(a)
    decreases i
  {
    if i <= 1 then a
    else ShuffleDown(Swap(a, i - 1, draw[i - 1]), draw, i - 1)
  }

  /** The Fisher-Yates loop over the whole array. */
  function Shuffle<T>(a: seq<T>, draw: seq<nat>): (r: seq<T>)
    requires DrawFits(draw, |a|)
  {
    ShuffleDown(a, draw, |a|)
  }

  /** The distance between two integers. */
  function Dist(a: int, b: int): nat
  {
    if a <= b then b - a else a - b
  }

  /** `Math.max(0, Math.min(n, len))`. */
  function Clamp(n: int, len: nat): (k: nat)
    ensures k <= len
    ensures 0 <= n <= len ==> k == n
    ensures n < 0 ==> k == 0
    ensures n > len ==> k == len
  {
    if n < 0 then 0 else if n > len then len else n
  }

  /** Of the lengths 0..len, the clamped count is the one nearest to the
      requested count, and no other length is as near. */
  lemma ClampNearest(n: int, len: nat)
    ensures Clamp(n, len) <= len
    ensures forall m :: 0 <= m <= len ==> Dist(Clamp(n, len), n) <= Dist(m, n)
    ensures forall m :: 0 <= m <= len && Dist(m, n) == Dist(Clamp(n, len), n) ==> m == Clamp(n, len)
  {
  }

  /** How many questions a request yields from `len` available ones. */
  function Wanted(n: Count, len: nat): nat
  {
    match n
    case All => len
    case Num(m) => Clamp(m, len)
  }

  /** `sampleWithoutReplacement(arr, n)` with the given draws. */
  function Sample<T>(a: seq<T>, n: Count, draw: seq<nat>): seq<T>
    requires DrawFits(draw, |a|)
  {
    var s := Shuffle(a, draw);
    match n
    case All => s
    case Num(m) => s[..Clamp(m, |a|)]
  }

  /** The JavaScript loop itself: from the last position down to position 1,
      swap with the drawn position; then keep everything for "all", or a
      prefix of the clamped length. */
  method SampleWithoutReplacement<T>(arr: seq<T>, n: Count, draw: seq<nat>) returns (r: seq<T>)
    requires DrawFits(draw, |arr|)
    ensures r == Sample(arr, n, draw)
  {
    var a := arr;
    var i := |arr| - 1;
    while i > 0
      invariant 0 <= i + 1 <= |arr|
      invariant i < 0 ==> |arr| == 0
      invariant |a| == |arr|
      invariant ShuffleDown(a, draw, if i < 0 then 0 else i + 1) == Shuffle(arr, draw)
      decreases i
    {
      var j := draw[i];
      a := Swap(a, i, j);
      i := i - 1;
    }
    match n {
      case All =>
        r := a;
      case Num(m) =>
        var k := Clamp(m, |a|);
        r := a[..k];
    }
  }

  /** A sample holds as many questions as asked for (clamped to what is
      there), every one taken from the input, none more often than the input
      holds it; with "all" it is a rearrangement of the input. */
  lemma SampleFacts<T>(a: seq<T>, n: Count, draw: seq<nat>)
    requires DrawFits(draw, |a|)
    ensures |Sample(a, n, draw)| == Wanted(n, |a|)
    ensures multiset(Sample(a, n, draw)) <= multiset(a)
    ensures n.All? ==> multiset(Sample(a, n, draw)) == multiset(a)
  {
    var s := Shuffle(a, draw);
    if n.Num? {
      var k := Clamp(n.n, |a|);
      assert s == s[..k] + s[k..];
      assert multiset(s) == multiset(s[..k]) + multiset(s[k..]);
    }
  }

  /** Asking for a number is taking a prefix of the "all" answer with the
      same draws; asking for at least the whole length is asking for all. */
  lemma SampleIsPrefix<T>(a: seq<T>, m: int, draw: seq<nat>)
    requires DrawFits(draw, |a|)
    ensures Sample(a, Num(m), draw) == Sample(a, All, draw)[..Clamp(m, |a|)]
    ensures m >= |a| ==> Sample(a, Num(m), draw) == Sample(a, All, draw)
  {
  }

  /** No question is drawn twice when the input has no repeats. */
  lemma SampleDistinct<T>(a: seq<T>, n: Count, draw: seq<nat>)
    requires DrawFits(draw, |a|)
    requires forall i, j :: 0 <= i < j < |a| ==> a[i] != a[j]
    ensures var r := Sample(a, n, draw);
      forall i, j :: 0 <= i < j < |r| ==> r[i] != r[j]
  {
    var r := Sample(a, n, draw);
    SampleFacts(a, n, draw);
    DistinctMultiset(a);
    forall i, j | 0 <= i < j < |r|
      ensures r[i] != r[j]
    {
      CountPair(r, i, j);
    }
  }

  /** Two positions holding the same value make it occur at least twice. */
  lemma CountPair<T>(r: seq<T>, i: nat, j: nat)
    requires i < j < |r|
    ensures multiset(r)[r[i]] >= if r[j] == r[i] then 2 else 1
  {
    assert r == r[..j] + [r[j]] + r[j + 1..];
    assert r[..j][i] == r[i];
    assert multiset(r) == multiset(r[..j]) + multiset{r[j]} + multiset(r[j + 1..]);
  }

  /** In a sequence without repeats each element occurs at most once. */
  lemma {:induction false} DistinctMultiset<T>(a: seq<T>)
    requires forall i, j :: 0 <= i < j < |a| ==> a[i] != a[j]
    ensures forall x :: multiset(a)[x] <= 1
    decreases |a|
  {
    if |a| > 0 {
      DistinctMultiset(a[1..]);
      assert a == [a[0]] + a[1..];
      assert a[0] !in a[1..];
    }
  }

  /** Draws that never move anything: each position swaps with itself. */
  predicate IdentityDraw(draw: seq<nat>)
  {
    forall i :: 0 <= i < |draw| ==> draw[i] == i
  }

  /** With draws that swap every position with itself, sampling keeps the
      input order and takes a prefix. */
  lemma IdentityDrawKeepsOrder<T>(a: seq<T>, n: Count, draw: seq<nat>)
    requires DrawFits(draw, |a|) && IdentityDraw(draw)
    ensures Sample(a, n, draw) == a[..Wanted(n, |a|)]
  {
    IdentityShuffle(a, draw, |a|);
  }

  lemma {:induction false} IdentityShuffle<T>(a: seq<T>, draw: seq<nat>, i: nat)
    requires DrawFits(draw, |a|) && IdentityDraw(draw) && i <= |a|
    ensures ShuffleDown(a, draw, i) == a
    decreases i
  {
    if i > 1 {
      assert Swap(a, i - 1, draw[i - 1]) == a;
      IdentityShuffle(a, draw, i - 1);
    }
  }
}

=== FILE: seqs.dfy ===
/** Generic sequence operations: order-preserving filtering, splitting on a
    separator and its inverse, joining. */
module Seqs {

  /** `a` can be obtained from `b` by deleting elements (order is kept). */
  ghost predicate IsSubsequence<T>(a: seq<T>, b: seq<T>)
    decreases |b|
  {
    |a| == 0 || (|b| > 0 && ((a[0] == b[0] && IsSubsequence(a[1..], b[1..])) || IsSubsequence(a, b[1..])))
  }

  /** The elements of `s` satisfying `f`, in order (JavaScript `Array.prototype.filter`). */
  function Filter<T>(f: T -> bool, s: seq<T>): seq<T>
  {
    if |s| == 0 then []
    else if f(s[0]) then [s[0]] + Filter(f, s[1..])
    else Filter(f, s[1..])
  }

  /** Filtering never lengthens, and everything kept passes `f`. */
  lemma {:induction false} FilterKeeps<T>(f: T -> bool, s: seq<T>)
    ensures |Filter(f, s)| <= |s|
    ensures forall i :: 0 <= i < |Filter(f, s)| ==> f(Filter(f, s)[i])
    decreases |s|
  {
    if |s| > 0 {
      FilterKeeps(f, s[1..]);
    }
  }

  /** What filtering keeps: an order-preserving subsequence of `s` holding
      every element that passes `f` as often as `s` does, and nothing else.
      Together these two facts pin the result down. */
  lemma {:induction false} FilterSpec<T>(f: T -> bool, s: seq<T>)
    ensures IsSubsequence(Filter(f, s), s)
    ensures forall x :: multiset(Filter(f, s))[x] == if f(x) then multiset(s)[x] else 0
    decreases |s|
  {
    if |s| > 0 {
      var rest := Filter(f, s[1..]);
      FilterSpec(f, s[1..]);
      FilterKeeps(f, s[1..]);
      assert s == [s[0]] + s[1..];
      if !f(s[0]) {
        assert rest == [] || rest[0] != s[0] by {
          if rest != [] { assert f(rest[0]); }
        }
      } else {
        assert ([s[0]] + rest)[1..] == rest;
      }
    }
  }

  /** Membership form of `FilterSpec`. */
  lemma FilterMembers<T>(f: T -> bool, s: seq<T>)
    ensures forall x :: x in Filter(f, s) <==> x in s && f(x)
  {
    FilterSpec(f, s);
    forall x
      ensures x in Filter(f, s) <==> x in s && f(x)
    {
      assert x in Filter(f, s) <==> x in multiset(Filter(f, s));
      assert x in s <==> x in multiset(s);
    }
  }

  /** Filtering distributes over concatenation. */
  lemma {:induction false} FilterConcat<T>(f: T -> bool, a: seq<T>, b: seq<T>)
    ensures Filter(f, a + b) == Filter(f, a) + Filter(f, b)
    decreases |a|
  {
    if |a| == 0 {
      assert a + b == b;
    } else {
      assert (a + b)[1..] == a[1..] + b;
      FilterConcat(f, a[1..], b);
    }
  }

  /** Filtering a sequence all of whose elements pass leaves it unchanged. */
  lemma {:induction false} FilterAll<T>(f: T -> bool, s: seq<T>)
    requires forall i :: 0 <= i < |s| ==> f(s[i])
    ensures Filter(f, s) == s
    decreases |s|
  {
    if |s| > 0 {
      FilterAll(f, s[1..]);
    }
  }

  /** The parts that pass a test and the parts that fail it add up to the whole. */
  lemma {:induction false} FilterComplement<T>(f: T -> bool, g: T -> bool, s: seq<T>)
    requires forall x :: g(x) == !f(x)
    ensures |Filter(f, s)| + |Filter(g, s)| == |s|
    decreases |s|
  {
    if |s| > 0 {
      FilterComplement(f, g, s[1..]);
    }
  }

  /** `f` applied to every element (JavaScript `Array.prototype.map`). */
  function Map<A, B>(f: A -> B, s: seq<A>): (r: seq<B>)
    ensures |r| == |s|
    ensures forall i :: 0 <= i < |s| ==> r[i] == f(s[i])
  {
    seq(|s|, i requires 0 <= i < |s| => f(s[i]))
  }

  /** Mapping a non-empty sequence maps its head, then its tail. */
  lemma MapCons<A, B>(f: A -> B, s: seq<A>)
    requires |s| > 0
    ensures Map(f, s) == [f(s[0])] + Map(f, s[1..])
  {
  }

  /** Mapping keeps the subsequence relation. */
  lemma {:induction false} MapSubsequence<A, B>(f: A -> B, a: seq<A>, b: seq<A>)
    requires IsSubsequence(a, b)
    ensures IsSubsequence(Map(f, a), Map(f, b))
    decreases |b|
  {
    if |a| > 0 {
      assert Map(f, b)[1..] == Map(f, b[1..]);
      if a[0] == b[0] && IsSubsequence(a[1..], b[1..]) {
        MapSubsequence(f, a[1..], b[1..]);
        assert Map(f, a)[1..] == Map(f, a[1..]);
      } else {
        MapSubsequence(f, a, b[1..]);
      }
    }
  }

  /** Applies a two-argument function to corresponding elements of two
      sequences of equal length. */
  function Zip<A, B, C>(f: (A, B) -> C, a: seq<A>, b: seq<B>): (r: seq<C>)
    requires |a| == |b|
    ensures |r| == |a|
    ensures forall i :: 0 <= i < |a| ==> r[i] == f(a[i], b[i])
  {
    seq(|a|, i requires 0 <= i < |a| => f(a[i], b[i]))
  }

  /** Extending both inputs by their next element extends the zip by one. */
  lemma ZipSnoc<A, B, C>(f: (A, B) -> C, a: seq<A>, b: seq<B>, i: nat)
    requires |a| == |b| && i < |a|
    ensures Zip(f, a[..i + 1], b[..i + 1]) == Zip(f, a[..i], b[..i]) + [f(a[i], b[i])]
  {
  }

  /** `parts` glued back together with `sep` between consecutive parts. */
  function Join<T>(parts: seq<seq<T>>, sep: T): seq<T>
    requires |parts| > 0
    decreases |parts|
  {
    if |parts| == 1 then parts[0] else parts[0] + [sep] + Join(parts[1..], sep)
  }

  /** `s` cut at every occurrence of `sep` (JavaScript `String.prototype.split`
      with a one-character separator): there is always at least one part, no
      part contains the separator, and joining the parts gives `s` back. */
  function Split<T(==)>(s: seq<T>, sep: T): (r: seq<seq<T>>)
    ensures |r| > 0
    ensures forall i :: 0 <= i < |r| ==> sep !in r[i]
    ensures Join(r, sep) == s
    decreases |s|
  {
    if |s| == 0 then [[]]
    else if s[0] == sep then
      var rest := Split(s[1..], sep);
      assert s == [] + [sep] + s[1..];
      [[]] + rest
    else
      var rest := Split(s[1..], sep);
      var r := [[s[0]] + rest[0]] + rest[1..];
      assert r[1..] == rest[1..];
      assert s == [s[0]] + s[1..];
      r
  }

  /** Splitting is the inverse of joining separator-free parts. */
  lemma {:induction false} SplitJoin<T>(parts: seq<seq<T>>, sep: T)
    requires |parts| > 0
    requires forall i :: 0 <= i < |parts| ==> sep !in parts[i]
    ensures Split(Join(parts, sep), sep) == parts
    decreases |parts|, |parts[0]|
  {
    var p := parts[0];
    if |p| == 0 {
      if |parts| > 1 {
        var j := Join(parts, sep);
        assert j == [sep] + Join(parts[1..], sep);
        assert j[1..] == Join(parts[1..], sep);
        SplitJoin(parts[1..], sep);
        assert parts == [[]] + parts[1..];
      }
    } else {
      var j := Join(parts, sep);
      var tail := [p[1..]] + parts[1..];
      assert tail[1..] == parts[1..];
      SplitJoin(tail, sep);
      assert j == [p[0]] + Join(tail, sep) by {
        if |parts| == 1 {
        } else {
          assert j == p + [sep] + Join(parts[1..], sep);
          assert Join(tail, sep) == p[1..] + [sep] + Join(parts[1..], sep);
        }
      }
      assert p[0] != sep by { assert p[0] in parts[0]; }
      assert j[1..] == Join(tail, sep);
      assert [p[0]] + tail[0] == p;
      assert [[p[0]] + tail[0]] + tail[1..] == parts;
    }
  }
}

=== FILE: text.dfy ===
/** Character classes and string primitives shared by the model: the
    JavaScript notion of white space used by `String.prototype.trim`, ASCII
    lower-casing, and how trimming commutes with character maps. */
module Text {
  import opened Seqs

  /** ECMAScript WhiteSpace or LineTerminator: TAB, LF, VT, FF, CR, SPACE,
      NO-BREAK SPACE, the Unicode space separators (category Zs), LINE SEPARATOR,
      PARAGRAPH SEPARATOR and the BOM. These are exactly the characters `trim` removes. */
  predicate IsSpace(c: char)
  {
    || c == '\t' || c == '\n' || c == '\U{000B}' || c == '\U{000C}' || c == '\r' || c == ' '
    || c == '\U{00A0}' || c == '\U{1680}' || ('\U{2000}' <= c <= '\U{200A}')
    || c == '\U{2028}' || c == '\U{2029}' || c == '\U{202F}' || c == '\U{205F}'
    || c == '\U{3000}' || c == '\U{FEFF}'
  }

  /** Neither end of `s` is white space. */
  predicate NoSpaceAtEnds(s: string)
  {
    |s| == 0 || (!IsSpace(s[0]) && !IsSpace(s[|s| - 1]))
  }

  /** `s` with its leading white space removed. */
  function TrimStart(s: string): string
    decreases |s|
  {
    if |s| > 0 && IsSpace(s[0]) then TrimStart(s[1..]) else s
  }

  /** `s` with its trailing white space removed. */
  function TrimEnd(s: string): string
    decreases |s|
  {
    if |s| > 0 && IsSpace(s[|s| - 1]) then TrimEnd(s[..|s| - 1]) else s
  }

  /** `TrimStart` keeps a suffix, drops only white space, and what is left
      does not start with white space. */
  lemma {:induction false} TrimStartFacts(s: string)
    ensures var r := TrimStart(s);
      && |r| <= |s| && r == s[|s| - |r|..]
      && (forall i :: 0 <= i < |s| - |r| ==> IsSpace(s[i]))
      && (|r| == 0 || !IsSpace(r[0]))
    decreases |s|
  {
    if |s| > 0 && IsSpace(s[0]) {
      TrimStartFacts(s[1..]);
    }
  }

  /** `TrimEnd` keeps a prefix, drops only white space, and what is left
      does not end with white space. */
  lemma {:induction false} TrimEndFacts(s: string)
    ensures var r := TrimEnd(s);
      && |r| <= |s| && r == s[..|r|]
      && (forall i :: |r| <= i < |s| ==> IsSpace(s[i]))
      && (|r| == 0 || !IsSpace(r[|r| - 1]))
    decreases |s|
  {
    if |s| > 0 && IsSpace(s[|s| - 1]) {
      TrimEndFacts(s[..|s| - 1]);
    }
  }

  /** JavaScript `String.prototype.trim`: leading and trailing white space removed. */
  function Trim(s: string): string
  {
    TrimEnd(TrimStart(s))
  }

  /** `r` sits at offset `a` of `s` with nothing but white space before and
      after it. */
  predicate Framed(s: string, a: int, r: string)
  {
    && 0 <= a && a + |r| <= |s| && r == s[a..a + |r|]
    && (forall i :: 0 <= i < a ==> IsSpace(s[i]))
    && (forall i :: a + |r| <= i < |s| ==> IsSpace(s[i]))
  }

  /** What trimming guarantees: neither end of the result is white space, the
      result is empty exactly when the input is all white space, every
      character kept comes from the input, and a string with no white space at
      either end is left alone (so trimming twice is trimming once). Together:
      the result is the middle of the input with white space, and only white
      space, on either side of it. */
  lemma TrimFacts(s: string)
    ensures var r := Trim(s);
      && NoSpaceAtEnds(r)
      && |r| <= |s|
      && (|r| == 0 <==> forall i :: 0 <= i < |s| ==> IsSpace(s[i]))
      && (NoSpaceAtEnds(s) ==> r == s)
      && exists a :: Framed(s, a, r)
  {
    var r := Trim(s);
    TrimFramed(s);
    TrimStartFacts(s);
    var a: nat := |s| - |TrimStart(s)|;
    assert Framed(s, a, r);
    assert forall i :: 0 <= i < |r| ==> r[i] == s[a + i];
    if |r| > 0 {
      assert !IsSpace(s[a]);
    }
    if NoSpaceAtEnds(s) && |s| > 0 {
      assert a == 0 && a + |r| == |s|;
      assert s[0..|s|] == s;
    }
  }

  /** `Trim(s)` is framed in `s` by white space, at the offset where
      `TrimStart` stopped. */
  lemma TrimFramed(s: string)
    ensures Framed(s, |s| - |TrimStart(s)|, Trim(s))
    ensures NoSpaceAtEnds(Trim(s))
  {
    var t := TrimStart(s);
    TrimStartFacts(s);
    TrimEndFacts(t);
    FramedBySpace(s, t, TrimEnd(t));
  }

  /** White space dropped from the front of `s` leaving `t`, then from the
      back of `t` leaving `r`: `r` is framed in `s` by white space. */
  lemma FramedBySpace(s: string, t: string, r: string)
    requires |t| <= |s| && t == s[|s| - |t|..]
    requires forall i :: 0 <= i < |s| - |t| ==> IsSpace(s[i])
    requires |t| == 0 || !IsSpace(t[0])
    requires |r| <= |t| && r == t[..|r|]
    requires forall i :: |r| <= i < |t| ==> IsSpace(t[i])
    requires |r| == 0 || !IsSpace(r[|r| - 1])
    ensures Framed(s, |s| - |t|, r) && NoSpaceAtEnds(r)
  {
    var a := |s| - |t|;
    assert r == s[a..a + |r|];
    forall i | a + |r| <= i < |s|
      ensures IsSpace(s[i])
    {
      assert s[i] == t[i - a];
    }
    if |r| > 0 {
      assert r[0] == t[0];
    }
  }

  /** Any property every character of `s` has, every character of `Trim(s)` has. */
  lemma TrimKeepsCharProperty(s: string, p: char -> bool)
    requires forall i :: 0 <= i < |s| ==> p(s[i])
    ensures forall i :: 0 <= i < |Trim(s)| ==> p(Trim(s)[i])
  {
    var t := TrimStart(s);
    TrimStartFacts(s);
    TrimEndFacts(t);
    assert forall i :: 0 <= i < |Trim(s)| ==> Trim(s)[i] == s[|s| - |t| + i];
  }

  lemma TrimIdempotent(s: string)
    ensures Trim(Trim(s)) == Trim(s)
  {
    TrimFacts(s);
    TrimFacts(Trim(s));
  }

  /** ASCII upper-case letter. */
  predicate IsAsciiUpper(c: char)
  {
    'A' <= c <= 'Z'
  }

  /** Lower-cases an ASCII letter and leaves every other character alone. */
  function LowerChar(c: char): (d: char)
    ensures !IsAsciiUpper(d)
  {
    if IsAsciiUpper(c) then (c as int + 32) as char else c
  }

  /** `toLowerCase`, restricted to the ASCII letters. */
  function ToLower(s: string): (r: string)
    ensures |r| == |s|
    ensures forall i :: 0 <= i < |r| ==> !IsAsciiUpper(r[i])
    ensures (forall i :: 0 <= i < |s| ==> !IsAsciiUpper(s[i])) ==> r == s
    ensures forall i :: 0 <= i < |s| ==>
      if IsAsciiUpper(s[i]) then 'a' <= r[i] <= 'z' && r[i] as int - s[i] as int == 'a' as int - 'A' as int
      else r[i] == s[i]
  {
    Map(LowerChar, s)
  }

  /** A character map that never turns white space into non-white space or back. */
  ghost predicate KeepsSpace(f: char -> char)
  {
    forall c :: IsSpace(f(c)) == IsSpace(c)
  }

  /** Trimming commutes with any character map that keeps white space. */
  lemma {:induction false} TrimStartMap(f: char -> char, s: string)
    requires KeepsSpace(f)
    ensures TrimStart(Map(f, s)) == Map(f, TrimStart(s))
    decreases |s|
  {
    var m := Map(f, s);
    if |s| > 0 && IsSpace(s[0]) {
      assert IsSpace(m[0]);
      assert m[1..] == Map(f, s[1..]);
      TrimStartMap(f, s[1..]);
    } else if |s| > 0 {
      assert !IsSpace(m[0]);
    }
  }

  lemma {:induction false} TrimEndMap(f: char -> char, s: string)
    requires KeepsSpace(f)
    ensures TrimEnd(Map(f, s)) == Map(f, TrimEnd(s))
    decreases |s|
  {
    var m := Map(f, s);
    if |s| > 0 && IsSpace(s[|s| - 1]) {
      assert IsSpace(m[|m| - 1]);
      assert m[..|m| - 1] == Map(f, s[..|s| - 1]);
      TrimEndMap(f, s[..|s| - 1]);
    } else if |s| > 0 {
      assert !IsSpace(m[|m| - 1]);
    }
  }

  lemma TrimMap(f: char -> char, s: string)
    requires KeepsSpace(f)
    ensures Trim(Map(f, s)) == Map(f, Trim(s))
  {
    TrimStartMap(f, s);
    TrimEndMap(f, TrimStart(s));
  }
}

=== FILE: wrappers.dfy ===
/** Failure-carrying result types shared by the whole model. */
module Wrappers {

  /** A value that may be missing (JavaScript `undefined`/`null`). */
  datatype Option<+T> = None | Some(value: T)

  /** The outcome of an operation that can fail with an error value. */
  datatype Result<+T, +E> = Success(value: T) | Failure(error: E)
}
